=== FILE: README.md ===
# RediSearch index mutation commands, modelled in Dafny

This project models the command handlers of the RediSearch module that change an
index's structure: document deletion (`FT.DEL`), the alias directory (`FT.ALIASADD`,
`FT.ALIASDEL`, `FT.ALIASUPDATE`) and the per-index synonym registry (`FT.SYNADD`,
`FT.SYNUPDATE`, `FT.SYNFORCEUPDATE`, `FT.SYNDUMP`). Around them it also models the
argument validation of `FT.SPELLCHECK`, the sharding-event handler, the shape of the
`FT.MGET` reply, and the line splitting of `FT.EXPLAINCLI`.

The server is an immutable `State.Server` value. It holds the registered indexes by
name, the alias directory, the keyspace's hashes, and the replication stream. Every
command is a pure function from the server and the argument vector (`argv[0]` is the
command name) to the reply and the next server. One call is one atomic step: the host
runs each command to completion before the next one starts.

The collaborators whose code is not part of this model are represented by the
smallest behaviour the handlers rely on:

- `IndexSpec_Load` (`State.Load`) tries an index name first and then an alias. The
  `INDEXSPEC_LOAD_NOALIAS` flag, which only `aliasAddCommon` sets, allows index names
  only.
- The document table (`State.DocTable`) maps keys to ids and keeps the set of ids
  that still have metadata. `DocTable_DeleteR` is assumed to drop the key and report
  whether its id still had metadata. The handler only tests that result
  (src/module.c:334), so a key whose id no longer has metadata answers 0; that case
  rests on this assumption about `DocTable_DeleteR`.
- `IndexAlias_Add` refuses a name that is already an alias or an index name.
  `IndexAlias_Del` refuses an alias that is not bound to the given index.
- The GEO index of a field (`Index.geo`, one id set per GEO field position) is
  modelled by two assumptions. `IDX_LoadGeo` with `REDISMODULE_WRITE` creates an empty
  index when the field has none. `GeoIndex_RemoveEntries` removes exactly the entries
  of the given id (src/module.c:330-331).
- The synonym map (`Synonyms.SynonymMap`) is a counter for the next group id, plus,
  for every term, the ids of the groups that hold it. The terms are kept in the order
  they were first added. That order is this model's choice: the order in which
  `SynonymMap_DumpAllTerms` lists terms is not part of this model.
- The synonym counter follows three assumed rules. `SynonymMap_AddRedisStr` returns
  the counter as the new group's id and raises the counter by one (src/module.c:545).
  `SynonymMap_UpdateRedisStr` leaves the counter unchanged, even for an id at or above
  it (src/module.c:567). `SynonymMap_GetMaxId` returns the counter (src/module.c:560).
  The counter clauses of `SynonymCommands.SynAdd`, `SynonymCommands.CheckedUpdateOutcome`
  and `SynonymCommands.ForcedUpdateOutcome` rest on these rules. For example, after a
  forced update of id 5 on an index without a map, a checked update of id 5 is still
  refused, because the forced update did not move the counter.
- `RedisModule_StringToLongLong` (`Decimal.ParseLongLong`) accepts exactly the
  canonical decimal spellings of signed 64-bit integers.
- `RMUtil_ArgExists` (`Args.ArgExists`) returns the first position at or after the
  offset whose argument equals the keyword ignoring ASCII case, or 0.

The modules follow the handlers: `Deletion`, `Aliases`, `Synonyms` with
`SynonymCommands`, `SpellCheck`, `Sharding`, `Documents` and `Explain`. They share
`Base`, `State`, `Ascii`, `Decimal` and `Args`.

Where the handlers' behaviour might be expected to differ, the model follows the code:

- `FT.ALIASUPDATE` is replicated verbatim, not as a record of the old and new targets.
- The compensating re-add in `FT.ALIASUPDATE` discards its own error instead of
  raising a fatal condition. `Aliases.RollbackNeverFails` shows that, under the
  directory invariant, the re-add cannot fail.
- `FT.ALIASDEL` only removes an alias that is bound to the index the name loads.
- `FT.SYNUPDATE` and `FT.SYNFORCEUPDATE` replicate as soon as the id passes the range
  check, before the index is loaded. So an unknown index or an unknown id is still
  replicated.
- `FT.DEL` replicates under the index's own name, even when the request used an alias.

## Model

| member | source | states |
|---|---|---|
| `Ascii.EqualsIgnoreCaseIsFoldedEquality` | src/module.c:214-218 | Case-insensitive keyword comparison holds exactly when both strings are equal after ASCII lower-casing. |
| `Args.ArgExists` | src/module.c:208 | A nonzero result is a matching position at or after the offset, and no earlier position from the offset matches. A zero result with a positive offset means no position from the offset on matches. |
| `Decimal.ParseFormatRoundTrip` | src/module.c:585-593 | Every signed 64-bit integer's decimal spelling parses back to that integer. |
| `Decimal.FormatParseRoundTrip` | src/module.c:585-593 | Only canonical spellings are accepted: a string that parses to n is n's decimal spelling, so no sign, leading zeros or blanks get through. |
| `State.Load` | src/module.c:301 | A found index is registered. An index name resolves to itself before any alias. A name that is neither an index nor (when aliases are allowed) an alias resolves to nothing. When aliases are allowed, an alias that is not an index name resolves to its target if the target is registered, and to nothing otherwise. |
| `State.DeleteByKey` | src/module.c:334 | The key leaves the id map. The result is true exactly when its id still had metadata, and only then is that metadata retired. |
| `Deletion.PurgeGeo` | src/module.c:325-332 | Every GEO field of the schema, and only those, loses the entries of the deleted id. The index of a GEO field that had none is created empty. Other fields' indexes are unchanged. |
| `Deletion.DecrementSize` | src/module.c:336 | The document count drops by one, and wraps to 2^64-1 from zero like the `size_t` counter. |
| `Deletion.DeleteDocumentRequested` | src/module.c:310-313 | DD is requested exactly when there are four arguments and the fourth lower-cases to "dd". |
| `Deletion.DelReplication` | src/module.c:354-358 | The replicated deletion names the command, the index and the key, and carries "dd" exactly when the document itself was deleted. |
| `Deletion.RetireKey` | src/module.c:325-360 | For a key the index knows: GEO entries are purged (no other geo index appears) and the document table becomes exactly what `DocTable_DeleteR` leaves. The fields, rules, synonyms and collector of the index are unchanged. The reply is 1 exactly when the id still had metadata. Then the count drops, the GC hint rises if the index has a collector, the hash is deleted under DD, and one replication record is added. Otherwise nothing else changes. |
| `Deletion.Delete` | src/module.c:297-361 | Wrong arity, an unknown index and a WITHRULES index are refused with the state unchanged, in that order. An unknown key answers 0 and changes nothing. A known key is retired as in `RetireKey`. Only a reply of 1 replicates. Aliases and the set of indexes never change. |
| `Deletion.DeleteTwice` | src/module.c:319-323 | Repeating a deletion changes nothing more: the second call answers 0 when the first answered 1, and otherwise gives the same reply as the first. It leaves the state as the first left it. |
| `Deletion.DeletePreservesValid` | src/module.c:297-361 | Deletion keeps the directory invariant. |
| `Documents.GetDocuments` | src/module.c:94-127 | There is one reply per requested key, in order. A reply is null exactly when the key is unknown to the index or its hash cannot be loaded. Arity and unknown-index errors come first. |
| `Documents.FetchAfterDelete` | src/module.c:108-112 | After `FT.DEL` of a key from an index without rules, `FT.MGET` of that key on the same index replies a single null, whether the deletion answered 1 or 0. The 0 case with a known key rests on the assumption that `DocTable_DeleteR` drops the key even when its id has no metadata. |
| `Explain.SplitLines` | src/module.c:266-269 | Splitting at newlines yields at least one piece, and no piece contains a newline. |
| `Explain.SplitLinesRoundTrip` | src/module.c:264-269 | Joining the pieces with newlines gives the explanation back: splitting loses nothing. |
| `Explain.SplitLinesCount` | src/module.c:262-270 | There is exactly one more piece than there are newlines, which is the array length the reply reports. |
| `Explain.ExplainReply` | src/module.c:254-277 | With no explanation, the error reply. Otherwise one bulk string, or one simple string per line in order, with newline count + 1 elements. |
| `SpellCheck.AsWrittenMessageOmitsBound` | src/module.c:164 | The as-written message's suffix is not a number at all. |
| `SpellCheck.BadDistanceMessage` | src/module.c:199-203 | The intended message keeps the fixed prefix, and its suffix parses to the bound 100 that the range test enforces. |
| `SpellCheck.DistanceValue` | src/module.c:197-199 | An accepted distance lies in [1, 100]. |
| `SpellCheck.DistanceValueIsCanonical` | src/module.c:197-204 | The accepted distance texts are exactly the canonical decimal spellings of 1 to 100, each read as its own value. |
| `SpellCheck.DistanceRefusalNamesTheBound` | src/module.c:199-203 | A refused distance value gets the bad-distance message with the bound as a number. The message the handler sends as written has the same prefix but differs from it. |
| `SpellCheck.ParseDistance` | src/module.c:191-205 | Without DISTANCE the distance is 1. A trailing DISTANCE is refused with its own message. Otherwise the following value is used, or refused with the bad-distance message that names the bound as a number (see Findings). A distance in use is always within [1, 100]. |
| `SpellCheck.CollectTermsSucceedsIffWellFormed` | src/module.c:207-222 | The TERMS loop succeeds exactly when every TERMS keyword after the command name is followed by INCLUDE or EXCLUDE and a dictionary name. |
| `SpellCheck.CollectTermsCollectsDictionaries` | src/module.c:207-222 | On success, the include and exclude lists are exactly the dictionaries the well-formed clauses name for each operation, in argument order. |
| `SpellCheck.CollectTermsFailsAtFirstBadClause` | src/module.c:207-222 | A failing TERMS loop stops at the first ill-formed clause in argument order: it replies the missing-parameters error when fewer than two arguments follow that keyword, and the bad-operation error otherwise. |
| `SpellCheck.SpellCheckArgs` | src/module.c:160-240 | The checks run in the order arity, index, query parse, distance, TERMS clauses. The first failure is the reply; for the TERMS clauses it is the error of the first ill-formed clause. A request that passes runs with the parsed distance, the dictionaries of its clauses, and FULLSCOREINFO exactly when the keyword appears. |
| `Synonyms.AddTermsIds` | src/module.c:567 | After extending group `id` with terms, a term lists a group exactly when it did before, or the term is among the new ones and the group is `id`. Earlier ids keep their order. |
| `Synonyms.AddTermsTerms` | src/module.c:567 | The set of known terms grows by exactly the added terms. |
| `Synonyms.AddTermsDistinct` | src/module.c:567 | Extending a group keeps every term listed at most once in dump order. |
| `Synonyms.UpdateUnionsTerms` | src/module.c:567 | An update unions the terms into the group and leaves the id counter alone. |
| `Synonyms.AddGroupAllocatesNextId` | src/module.c:545 | A new group gets the current counter value as its id and the counter goes up by one. Its terms list that id, and no term gains any other. |
| `SynonymCommands.SynAdd` | src/module.c:532-550 | Arity and unknown index are refused with no change. Otherwise the reply is the old counter value, the counter rises by one (under the assumed counter rules), the command is replicated once, the resolved index changes only in its synonym map, and every other index, the aliases and the keyspace are unchanged. |
| `SynonymCommands.SynAddOutcome` | src/module.c:541-547 | The id replied is the group's id: exactly the given terms gain it, and no term gains anything else. |
| `SynonymCommands.SynUpdateCommon` | src/module.c:581-593 | Arity, a non-integer id and an id outside [0, 2^32-1] are refused with no change and no replication. |
| `SynonymCommands.CheckedUpdateOutcome` | src/module.c:581-598 | `FT.SYNUPDATE` succeeds exactly for an in-range id below the counter of an existing map. A refusal leaves the indexes unchanged. Success extends the group and keeps the counter. Replication happens whenever the id was in range. The aliases, the keyspace, the other indexes and every field of the index except its synonym map are always unchanged. |
| `SynonymCommands.ForcedUpdateOutcome` | src/module.c:600-617 | `FT.SYNFORCEUPDATE` succeeds for any in-range id of an existing index. It creates the map if needed, keeps its counter (under the assumed counter rules), and adds the terms to the group. The command is replicated once. The aliases, the keyspace, the other indexes and every field of the index except its synonym map are unchanged. |
| `SynonymCommands.DumpItems` | src/module.c:646-657 | The dump has two elements per term: the term, then the array of its group ids, in map order. |
| `SynonymCommands.SynDump` | src/module.c:631-662 | Arity and unknown index are refused. An index never touched by a synonym command dumps an empty array. Otherwise the array is twice the number of terms long. |
| `SynonymCommands.SynonymScenario` | src/module.c:532-572 | Two new groups get ids 0 and 1 in turn, and extending group 0 appends the new term with only that group, leaving the earlier terms as they were. |
| `Aliases.IndexAliasAdd` | src/module.c:711 | Binding succeeds exactly when the name is neither an alias nor an index, and then adds only that binding. |
| `Aliases.IndexAliasDel` | src/module.c:738 | Unbinding succeeds exactly when the alias is bound to the given index, and then removes only that binding. |
| `Aliases.AliasAddCommon` | src/module.c:700-712 | The target must be an index in its own right, not an alias. Then the alias is bound exactly when the name is free. An unknown target gets the dedicated message. |
| `Aliases.AliasAddCommand` | src/module.c:715-726 | Arity is checked first. OK comes exactly when the target is an index and the alias name is free. Then only the new binding and one verbatim replication are added. A refusal changes nothing. |
| `Aliases.AliasDelCommand` | src/module.c:728-744 | A name that does not load is "Alias does not exist". OK removes exactly that alias and replicates once. Under the invariant, OK comes exactly when the name is an alias. |
| `Aliases.AliasUpdateCommand` | src/module.c:746-773 | Under the invariant, OK comes exactly when the name is not an index and the target is one. The alias then points to the target whether it was bound before or not. A refusal leaves the whole state unchanged (the rollback restores the old binding), and only OK replicates. |
| `Aliases.RollbackNeverFails` | src/module.c:760-767 | Under the invariant, re-adding a binding that was just removed always succeeds and restores the directory exactly. |
| `Aliases.AliasCommandsPreserveValid` | src/module.c:715-773 | All three alias commands keep the invariant: no name is both an index and an alias, and every alias names a registered index. |
| `Aliases.AliasRebindScenario` | src/module.c:715-773 | Adding an alias works, adding it again is refused with no change, and updating it rebinds it so that it loads the new index. |
| `Sharding.OnShardingEvent` | src/module.c:859-878 | A slot-range change sets the slot check and a trim end clears it. Trim start, unknown sub-events and other events leave it unchanged. |
| `Sharding.ReplayFollowsLastDecisiveEvent` | src/module.c:864-878 | After any sequence of events, the flag is what the latest slot-range change or trim end made it, or its initial value if there was none. |

## Left out

- The reader–writer lock `RWLock` declared at src/module.c:37 and any threading: the modelled handlers do not take it, and each command is one atomic step.
- Module start-up, command registration, configuration, and the unload cleanup.
- `FT.CREATE`, `FT.ALTER`, `FT.OPTIMIZE`, `FT.DROP`, `FT.TAGVALS`, `FT.SETPAYLOAD`, `FT.GET`, search, aggregation, cursors, `FT.CONFIG` and the rule commands: they are outside this model's scope.
- The internals of the document table, the GEO index, the alias directory, the synonym map and index loading. Their code is not part of this model; they are represented by the assumed behaviour listed at the top of this file.
- Reply encoding, postponed array lengths and logging (including the warning when a DD target is not a hash).
- Query parsing and the explanation text: they enter `SpellCheck.SpellCheckArgs` and `Explain.ExplainReply` as parameters. The spelling suggestions themselves are not computed.
- Strings are sequences of characters with no NUL terminator, so C string truncation at an embedded NUL is not modelled.
- `SynonymCommands.SynAdd`: the group counter is an unbounded natural, so the `uint32_t` id wrap after 2^32 groups is not modelled.
- `Documents.GetDocuments`: each non-null item is the stored hash's values, and a failed document load is modelled as the key having no hash. Field-by-field reply encoding is left out.
- `SpellCheck.ParseDistance`: a refused distance value is answered with the corrected bad-distance message, not with the text the handler sends as written (see Findings); `SpellCheck.DistanceRefusalNamesTheBound` relates the two. `SpellCheck.SpellCheckArgs` inherits this.
- `SpellCheck.SpellCheckArgs`: when the distance check is the first to fail, the reply is the corrected bad-distance message ending in "100", not the "…MAX_LEV_DISTANCE" text the handler sends as written (see Findings), for the same reason as `SpellCheck.ParseDistance`.
- `SynonymCommands.SynDump`: its contract states the reply's shape and length; the order and contents of the items are stated by `SynonymCommands.DumpItems`.
- The GC notification `GCContext_OnDelete` is modelled as a counter of deletion hints on indexes that have a collector.

## Findings

| source | as written | input that shows it | evidently intended | confidence | as-written member | corrected member |
|---|---|---|---|---|---|---|
| src/module.c:199-203 | `STRINGIFY(MAX_LEV_DISTANCE)` with `#define STRINGIFY(s) #s` stringizes the macro's name, because `#` does not expand its operand | `FT.SPELLCHECK idx q DISTANCE 0` replies "... between 1 to MAX_LEV_DISTANCE" | the message ends with the bound "100" (a two-level stringize macro) | not executed | `SpellCheck.BadDistanceMessageAsWritten` | `SpellCheck.BadDistanceMessage` |

=== FILE: aliases.dfy ===
/** `FT.ALIASADD`, `FT.ALIASDEL` and `FT.ALIASUPDATE`: the alias directory, with the
    compensating re-add that keeps an update all-or-nothing. */
module Aliases {
  import opened Base
  import opened State

  const NO_SUCH_TARGET: string := "Unknown index name (or name is an alias itself)"
  const ALIAS_DOES_NOT_EXIST: string := "Alias does not exist"
  /** The directory's own refusals; their wording belongs to the directory. */
  const ALIAS_EXISTS: string := "Alias already exists"
  const ALIAS_NOT_BOUND: string := "Alias does not belong to provided spec"

  /** What a directory operation reports, and the alias map it leaves behind. */
  datatype Outcome = Outcome(error: Option<string>, aliases: map<string, string>)

  /** `IndexAlias_Add`: binds `alias` to the index `target`, refusing a name that is
      already an alias or an index. */
  function IndexAliasAdd(s: Server, alias: string, target: string): (o: Outcome)
    ensures o.error.None? <==> alias !in s.aliases && alias !in s.indexes
    ensures o.error.None? ==> o.aliases == s.aliases[alias := target]
    ensures o.error.Some? ==> o.aliases == s.aliases
  {
    if alias in s.aliases || alias in s.indexes then Outcome(Some(ALIAS_EXISTS), s.aliases)
    else Outcome(None, s.aliases[alias := target])
  }

  /** `IndexAlias_Del`: unbinds `alias`, which must currently denote `target`. */
  function IndexAliasDel(s: Server, alias: string, target: string): (o: Outcome)
    ensures o.error.None? <==> alias in s.aliases && s.aliases[alias] == target
    ensures o.error.None? ==> o.aliases == s.aliases - {alias}
    ensures o.error.Some? ==> o.aliases == s.aliases
  {
    if alias !in s.aliases then Outcome(Some(ALIAS_DOES_NOT_EXIST), s.aliases)
    else if s.aliases[alias] != target then Outcome(Some(ALIAS_NOT_BOUND), s.aliases)
    else Outcome(None, s.aliases - {alias})
  }

  /** `aliasAddCommon`: the target `argv[2]` must load as an index in its own right (not
      through an alias) before `argv[1]` is bound to it. */
  function AliasAddCommon(s: Server, argv: seq<string>): (o: Outcome)
    requires |argv| >= 3
    ensures o.error.None? <==> argv[2] in s.indexes && argv[1] !in s.aliases && argv[1] !in s.indexes
    ensures argv[2] !in s.indexes ==> o.error == Some(NO_SUCH_TARGET)
    ensures o.error.None? ==> o.aliases == s.aliases[argv[1] := argv[2]]
    ensures o.error.Some? ==> o.aliases == s.aliases
  {
    match Load(s, argv[2], true)
    case None => Outcome(Some(NO_SUCH_TARGET), s.aliases)
    case Some(target) => IndexAliasAdd(s, argv[1], target)
  }

  /** `FT.ALIASADD {alias} {index}`. */
  function AliasAddCommand(s: Server, argv: seq<string>): (out: (Reply, Server))
    ensures |argv| != 3 ==> out == (WrongArity, s)
    ensures |argv| == 3 ==>
              (out.0 == Simple("OK") <==> argv[2] in s.indexes && argv[1] !in s.aliases && argv[1] !in s.indexes)
    ensures out.0 == Simple("OK") ==>
              out.1 == s.(aliases := s.aliases[argv[1] := argv[2]], replicated := s.replicated + [argv])
    ensures out.0 != Simple("OK") ==> out.1 == s
    ensures |argv| == 3 && argv[2] !in s.indexes ==> out.0 == Error(NO_SUCH_TARGET)
  {
    if |argv| != 3 then (WrongArity, s)
    else
      var o := AliasAddCommon(s, argv);
      if o.error.Some? then (Error(o.error.value), s)
      else (Simple("OK"), Replicate(s.(aliases := o.aliases), argv))
  }

  /** `FT.ALIASDEL {alias}`. */
  function AliasDelCommand(s: Server, argv: seq<string>): (out: (Reply, Server))
    ensures |argv| != 2 ==> out == (WrongArity, s)
    ensures |argv| == 2 && Load(s, argv[1], false).None? ==> out == (Error(ALIAS_DOES_NOT_EXIST), s)
    ensures out.0 == Simple("OK") ==>
              argv[1] in s.aliases &&
              out.1 == s.(aliases := s.aliases - {argv[1]}, replicated := s.replicated + [argv])
    ensures out.0 != Simple("OK") ==> out.1 == s
    ensures Valid(s) && |argv| == 2 ==> (out.0 == Simple("OK") <==> argv[1] in s.aliases)
  {
    if |argv| != 2 then (WrongArity, s)
    else match Load(s, argv[1], false)
      case None => (Error(ALIAS_DOES_NOT_EXIST), s)
      case Some(sp) =>
        var o := IndexAliasDel(s, argv[1], sp);
        if o.error.Some? then (Error(o.error.value), s)
        else (Simple("OK"), Replicate(s.(aliases := o.aliases), argv))
  }

  /** The directory operations `FT.ALIASUPDATE` performs, step by step: the unbinding of
      the prior target (if the name loads), the new binding, and the compensating re-add
      when the new binding is refused. The re-add's own error is discarded. */
  function AliasUpdateCommand(s: Server, argv: seq<string>): (out: (Reply, Server))
    ensures |argv| != 3 ==> out == (WrongArity, s)
    ensures out.0 == Simple("OK") ==>
              argv[2] in s.indexes &&
              out.1 == s.(aliases := out.1.aliases, replicated := s.replicated + [argv]) &&
              out.1.aliases == (s.aliases - {argv[1]})[argv[1] := argv[2]]
    ensures out.0 != Simple("OK") ==> out.1.replicated == s.replicated
    ensures out.1.indexes == s.indexes && out.1.hashes == s.hashes
    // under the directory invariant a refused update changes nothing at all
    ensures Valid(s) && out.0 != Simple("OK") ==> out.1 == s
    ensures Valid(s) && |argv| == 3 ==>
              (out.0 == Simple("OK") <==> argv[1] !in s.indexes && argv[2] in s.indexes)
    ensures Valid(s) && |argv| == 3 && argv[1] !in s.indexes && argv[2] !in s.indexes ==>
              out.0 == Error(NO_SUCH_TARGET)
  {
    if |argv| != 3 then (WrongArity, s)
    else
      var orig := Load(s, argv[1], false);
      var del := if orig.Some? then IndexAliasDel(s, argv[1], orig.value) else Outcome(None, s.aliases);
      if del.error.Some? then (Error(del.error.value), s)
      else
        var s1 := s.(aliases := del.aliases);
        var add := AliasAddCommon(s1, argv);
        if add.error.Some? then
          var restored := if orig.Some? then IndexAliasAdd(s1, argv[1], orig.value).aliases else s1.aliases;
          (Error(add.error.value), s1.(aliases := restored))
        else (Simple("OK"), Replicate(s1.(aliases := add.aliases), argv))
  }

  /** The compensating re-add cannot fail under the directory invariant: once the prior
      binding was removed, nothing else holds the name. */
  lemma RollbackNeverFails(s: Server, alias: string)
    requires Valid(s) && alias in s.aliases
    ensures var s1 := s.(aliases := IndexAliasDel(s, alias, s.aliases[alias]).aliases);
            IndexAliasAdd(s1, alias, s.aliases[alias]).error.None? &&
            IndexAliasAdd(s1, alias, s.aliases[alias]).aliases == s.aliases
  {
    var s1 := s.(aliases := IndexAliasDel(s, alias, s.aliases[alias]).aliases);
    assert s1.aliases[alias := s.aliases[alias]] == s.aliases;
  }

  /** All three commands keep the invariant: no name is both index and alias, and every
      alias denotes a registered index. */
  lemma AliasCommandsPreserveValid(s: Server, argv: seq<string>)
    requires Valid(s)
    ensures Valid(AliasAddCommand(s, argv).1)
    ensures Valid(AliasDelCommand(s, argv).1)
    ensures Valid(AliasUpdateCommand(s, argv).1)
  {
  }

  /** Binding a name twice: the second `FT.ALIASADD` is refused and changes nothing, while
      `FT.ALIASUPDATE` moves the alias, after which the alias loads the new index. */
  lemma AliasRebindScenario(s: Server, cmdAdd: string, cmdUpdate: string, alias: string, a: string, b: string)
    requires Valid(s) && a in s.indexes && b in s.indexes
    requires alias !in s.indexes && alias !in s.aliases
    ensures var (r1, s1) := AliasAddCommand(s, [cmdAdd, alias, a]);
            var (r2, s2) := AliasAddCommand(s1, [cmdAdd, alias, b]);
            var (r3, s3) := AliasUpdateCommand(s2, [cmdUpdate, alias, b]);
            && r1 == Simple("OK") && Load(s1, alias, false) == Some(a)
            && r2 == Error(ALIAS_EXISTS) && s2 == s1
            && r3 == Simple("OK") && Load(s3, alias, false) == Some(b)
  {
  }
}

=== FILE: args.dfy ===
/** Keyword lookup in a command's argument vector, as `RMUtil_ArgExists` does it. */
module Args {
  import opened Ascii

  /** The first position at or after `offset` whose argument equals `keyword` ignoring
      case, or 0 when there is none. Position 0 (the command name) is therefore
      indistinguishable from "absent", which is why callers search keywords that
      can never be a command name. */
  function ArgExists(keyword: string, argv: seq<string>, offset: nat): (p: nat)
    ensures p != 0 ==> offset <= p < |argv| && EqualsIgnoreCase(argv[p], keyword)
    ensures p != 0 ==> forall q :: offset <= q < p ==> !EqualsIgnoreCase(argv[q], keyword)
    ensures p == 0 && offset > 0 ==>
              forall q :: offset <= q < |argv| ==> !EqualsIgnoreCase(argv[q], keyword)
    decreases |argv| - offset
  {
    if offset >= |argv| then 0
    else if EqualsIgnoreCase(argv[offset], keyword) then offset
    else ArgExists(keyword, argv, offset + 1)
  }
}

=== FILE: ascii.dfy ===
/** ASCII case folding, as `strcasecmp` performs it in the C locale. */
module Ascii {

  function ToLower(c: char): (r: char)
    ensures 'A' <= c <= 'Z' ==> r as int == c as int + 32
    ensures !('A' <= c <= 'Z') ==> r == c
    ensures !('A' <= r <= 'Z')
  {
    if 'A' <= c <= 'Z' then (c as int + 32) as char else c
  }

  /** The string with every upper-case ASCII letter folded to lower case. */
  function LowerAll(s: string): (r: string)
    ensures |r| == |s|
    ensures forall i :: 0 <= i < |s| ==> r[i] == ToLower(s[i])
  {
    seq(|s|, i requires 0 <= i < |s| => ToLower(s[i]))
  }

  /** Whole-string case-insensitive equality, compared letter by letter from the front:
      the meaning of `strcasecmp(a, b) == 0`, and of a length check followed by
      `strncasecmp`. */
  predicate EqualsIgnoreCase(a: string, b: string)
    decreases |a|
  {
    |a| == |b| && (a == [] || (ToLower(a[0]) == ToLower(b[0]) && EqualsIgnoreCase(a[1..], b[1..])))
  }

  /** The letter-by-letter comparison agrees with comparing the folded strings. */
  lemma {:induction false} EqualsIgnoreCaseIsFoldedEquality(a: string, b: string)
    ensures EqualsIgnoreCase(a, b) <==> LowerAll(a) == LowerAll(b)
    decreases |a|
  {
    if |a| == |b| && a != [] {
      EqualsIgnoreCaseIsFoldedEquality(a[1..], b[1..]);
      if LowerAll(a) == LowerAll(b) {
        assert LowerAll(a[1..]) == LowerAll(a)[1..];
        assert LowerAll(b[1..]) == LowerAll(b)[1..];
      }
      if EqualsIgnoreCase(a, b) {
        assert forall i :: 1 <= i < |a| ==> LowerAll(a)[i] == LowerAll(a[1..])[i - 1];
        assert forall i :: 1 <= i < |b| ==> LowerAll(b)[i] == LowerAll(b[1..])[i - 1];
      }
    }
  }
}

=== FILE: base.dfy ===
/** Small shared vocabulary: optional values and the replies a command sends back. */
module Base {

  /** A value that may be absent, standing in for a NULL pointer or a "not found" return. */
  datatype Option<+T> = None | Some(value: T)

  /** What a command hands back to the client. `WrongArity` is the host's standard
      arity error; `Error` carries the message text. */
  datatype Reply =
    | Simple(text: string)
    | Error(message: string)
    | WrongArity
    | Integer(n: int)
    | Bulk(bytes: string)
    | Array(items: seq<Reply>)
    | Null

  /** A replicated command, written as its argument vector (command name first). */
  type Replicated = seq<string>

  const UINT32_MAX: int := 0xFFFF_FFFF
  const LLONG_MIN: int := -0x8000_0000_0000_0000
  const LLONG_MAX: int := 0x7FFF_FFFF_FFFF_FFFF
  const SIZE_MODULUS: int := 0x1_0000_0000_0000_0000

  /** The values a 64-bit `size_t` counter can hold. */
  type SizeT = n: int | 0 <= n < SIZE_MODULUS

  /** Concatenation regroups freely; stated once so that proofs can use it in a small context. */
  lemma ConcatAssociative<T>(a: seq<T>, b: seq<T>, c: seq<T>)
    ensures (a + b) + c == a + (b + c)
  {
  }
}

=== FILE: decimal.dfy ===
/** Decimal integers as the host's `RedisModule_StringToLongLong` reads them: the
    canonical spelling only (optional '-', no leading zeros, no '+', no blanks),
    within the signed 64-bit range. */
module Decimal {
  import opened Base

  predicate IsDigit(c: char) {
    '0' <= c <= '9'
  }

  predicate AllDigits(s: string) {
    forall i :: 0 <= i < |s| ==> IsDigit(s[i])
  }

  function DigitValue(c: char): (d: nat)
    requires IsDigit(c)
    ensures d < 10
  {
    c as int - '0' as int
  }

  function DigitChar(d: nat): (c: char)
    requires d < 10
    ensures IsDigit(c) && DigitValue(c) == d
  {
    ('0' as int + d) as char
  }

  /** The number a string of decimal digits denotes (most significant digit first). */
  function ValueOf(s: string): nat
    requires AllDigits(s)
  {
    if s == [] then 0 else ValueOf(s[..|s| - 1]) * 10 + DigitValue(s[|s| - 1])
  }

  /** A run of digits with no leading zero, read as a magnitude. */
  function ParseMagnitude(s: string): Option<nat>
  {
    if |s| > 0 && '1' <= s[0] <= '9' && AllDigits(s) then Some(ValueOf(s)) else None
  }

  /** Reading a signed 64-bit integer; `None` is the host's parse error. */
  function ParseLongLong(s: string): (r: Option<int>)
    ensures r.Some? ==> LLONG_MIN <= r.value <= LLONG_MAX
  {
    if s == "0" then Some(0)
    else if |s| > 0 && s[0] == '-' then
      var m := ParseMagnitude(s[1..]);
      if m.Some? && m.value <= -LLONG_MIN then Some(-(m.value as int)) else None
    else
      var m := ParseMagnitude(s);
      if m.Some? && m.value <= LLONG_MAX then Some(m.value) else None
  }

  function FormatNat(n: nat): string
  {
    if n < 10 then [DigitChar(n)] else FormatNat(n / 10) + [DigitChar(n % 10)]
  }

  /** The canonical decimal spelling of an integer. */
  function FormatInt(n: int): string
  {
    if n < 0 then "-" + FormatNat(-n) else FormatNat(n)
  }

  lemma {:induction false} FormatNatIsCanonical(n: nat)
    ensures AllDigits(FormatNat(n)) && |FormatNat(n)| > 0
    ensures ValueOf(FormatNat(n)) == n
    ensures n > 0 ==> '1' <= FormatNat(n)[0] <= '9'
    ensures n == 0 ==> FormatNat(n) == "0"
    decreases n
  {
    if n >= 10 {
      FormatNatIsCanonical(n / 10);
      var s := FormatNat(n);
      assert s == FormatNat(n / 10) + [DigitChar(n % 10)];
      assert s[..|s| - 1] == FormatNat(n / 10);
      assert s[0] == FormatNat(n / 10)[0];
    }
  }

  lemma {:induction false} LeadingNonZeroIsPositive(s: string)
    requires AllDigits(s) && |s| > 0 && '1' <= s[0] <= '9'
    ensures ValueOf(s) > 0
    decreases |s|
  {
    if |s| > 1 {
      LeadingNonZeroIsPositive(s[..|s| - 1]);
    }
  }

  lemma {:induction false} ValueOfIsCanonical(s: string)
    requires AllDigits(s) && |s| > 0 && '1' <= s[0] <= '9'
    ensures FormatNat(ValueOf(s)) == s
    decreases |s|
  {
    if |s| > 1 {
      var p := s[..|s| - 1];
      LeadingNonZeroIsPositive(p);
      ValueOfIsCanonical(p);
      var v := ValueOf(s);
      assert v / 10 == ValueOf(p) && v % 10 == DigitValue(s[|s| - 1]);
      assert s == p + [s[|s| - 1]];
    }
  }

  /** Every 64-bit integer's canonical spelling reads back as that integer. */
  lemma ParseFormatRoundTrip(n: int)
    requires LLONG_MIN <= n <= LLONG_MAX
    ensures ParseLongLong(FormatInt(n)) == Some(n)
  {
    if n < 0 {
      FormatNatIsCanonical(-n);
      var s := FormatInt(n);
      assert s[1..] == FormatNat(-n);
    } else if n > 0 {
      FormatNatIsCanonical(n);
    }
  }

  /** Only canonical spellings are accepted: whatever reads as `n` is `n`'s spelling. */
  lemma FormatParseRoundTrip(s: string, n: int)
    requires ParseLongLong(s) == Some(n)
    ensures s == FormatInt(n)
  {
    if s == "0" {
    } else if |s| > 0 && s[0] == '-' {
      ValueOfIsCanonical(s[1..]);
      LeadingNonZeroIsPositive(s[1..]);
      assert s == "-" + s[1..];
    } else {
      ValueOfIsCanonical(s);
      LeadingNonZeroIsPositive(s);
    }
  }
}

=== FILE: deletion.dfy ===
/** `FT.DEL {index} {key} [DD]`: retiring one document from an index. */
module Deletion {
  import opened Base
  import opened Ascii
  import opened State

  const WITHRULES_ERROR: string := "Cannot manually remove documents from index declared using `WITHRULES`"
  /** The name the deletion is replicated under (`RS_DEL_CMD`). */
  const DEL_CMD: string := "FT.DEL"

  predicate IsGeo(f: Field) {
    Geo in f.types
  }

  /** The ids with entries in the geo index of field position `k` (a missing index holds none). */
  function GeoEntries(geo: map<nat, set<DocId>>, k: nat): set<DocId> {
    if k in geo then geo[k] else {}
  }

  /** The loop over the schema from position `i` on: every GEO field's index is loaded for
      writing (created empty when missing) and loses its entries for `id`. */
  function PurgeGeo(fields: seq<Field>, geo: map<nat, set<DocId>>, id: DocId, i: nat): (r: map<nat, set<DocId>>)
    requires i <= |fields|
    ensures forall k :: i <= k < |fields| && IsGeo(fields[k]) ==> k in r && r[k] == GeoEntries(geo, k) - {id}
    ensures forall k :: k in geo && !(i <= k < |fields| && IsGeo(fields[k])) ==> k in r && r[k] == geo[k]
    ensures forall k :: k in r ==> k in geo || (i <= k < |fields| && IsGeo(fields[k]))
    decreases |fields| - i
  {
    if i == |fields| then geo
    else
      var rest := PurgeGeo(fields, geo, id, i + 1);
      if IsGeo(fields[i]) then rest[i := GeoEntries(geo, i) - {id}] else rest
  }

  /** `sp->stats.numDocuments--` on a `size_t`: one less, wrapping at zero. */
  function DecrementSize(n: SizeT): (r: SizeT)
    ensures n > 0 ==> r == n - 1
    ensures n == 0 ==> r == SIZE_MODULUS - 1
  {
    (n + SIZE_MODULUS - 1) % SIZE_MODULUS
  }

  /** `DD` is honoured only as the fourth argument, in any letter case. */
  function DeleteDocumentRequested(argv: seq<string>): (dd: bool)
    ensures dd <==> |argv| == 4 && LowerAll(argv[3]) == "dd"
  {
    if |argv| == 4 then
      EqualsIgnoreCaseIsFoldedEquality(argv[3], "DD");
      assert LowerAll("DD") == "dd";
      EqualsIgnoreCase(argv[3], "DD")
    else false
  }

  /** The replicated form of a deletion of `key` from the index named `name`. */
  function DelReplication(name: string, key: string, dd: bool): (cmd: Replicated)
    ensures |cmd| == if dd then 4 else 3
    ensures cmd[0] == DEL_CMD && cmd[1] == name && cmd[2] == key
    ensures dd ==> cmd[3] == "dd"
  {
    [DEL_CMD, name, key] + (if dd then ["dd"] else [])
  }

  /** The arguments have the right count and name an index (or an alias of one). */
  predicate Resolved(s: Server, argv: seq<string>) {
    3 <= |argv| <= 4 && Load(s, argv[1], false).Some?
  }

  /** The index a resolved deletion acts on. */
  function Target(s: Server, argv: seq<string>): Index
    requires Resolved(s, argv)
  {
    s.indexes[Load(s, argv[1], false).value]
  }

  /** The facts a deletion of a key the index knows establishes about the resolved index,
      whether the key's id still had metadata (reply 1) or not (reply 0). */
  ghost predicate Retired(s: Server, argv: seq<string>, reply: Reply, s': Server)
    requires 3 <= |argv| <= 4
    requires Load(s, argv[1], false).Some?
  {
    var name := Load(s, argv[1], false).value;
    var sp := s.indexes[name];
    var id := GetId(sp.docs, argv[2]);
    var dd := DeleteDocumentRequested(argv);
    name in s'.indexes &&
    var sp' := s'.indexes[name];
    // every GEO field, and only those, loses the entries of `id`
    && (forall k :: 0 <= k < |sp.fields| && IsGeo(sp.fields[k]) ==> k in sp'.geo && sp'.geo[k] == GeoEntries(sp.geo, k) - {id})
    && (forall k :: k in sp.geo && !(k < |sp.fields| && IsGeo(sp.fields[k])) ==> k in sp'.geo && sp'.geo[k] == sp.geo[k])
    && (forall k :: k in sp'.geo ==> k in sp.geo || (k < |sp.fields| && IsGeo(sp.fields[k])))
    // the key leaves the document table exactly as the table's own deletion does
    && sp'.docs == DeleteByKey(sp.docs, argv[2]).1
    // nothing else of the index record changes
    && sp' == sp.(geo := sp'.geo, docs := sp'.docs, numDocuments := sp'.numDocuments, gcHints := sp'.gcHints)
    && (forall other :: other in s.indexes && other != name ==> other in s'.indexes && s'.indexes[other] == s.indexes[other])
    && if reply == Integer(1) then
         && sp'.numDocuments == DecrementSize(sp.numDocuments)
         && sp'.gcHints == (if sp.hasGc then sp.gcHints + 1 else sp.gcHints)
         && s'.replicated == s.replicated + [DelReplication(name, argv[2], dd)]
         && s'.hashes == (if dd then s.hashes - {argv[2]} else s.hashes)
       else
         && reply == Integer(0)
         && sp'.numDocuments == sp.numDocuments && sp'.gcHints == sp.gcHints
         && s'.replicated == s.replicated && s'.hashes == s.hashes
  }

  /** A key the index knows: its GEO entries are purged, then the document table decides
      whether this call retires it (1) or its id had no metadata left (0). */
  function RetireKey(s: Server, argv: seq<string>): (out: (Reply, Server))
    requires Resolved(s, argv) && !Target(s, argv).useRules && GetId(Target(s, argv).docs, argv[2]) != 0
    ensures Retired(s, argv, out.0, out.1)
    ensures out.0 == Integer(1) <==> Target(s, argv).docs.ids[argv[2]] in Target(s, argv).docs.live
    ensures out.1.aliases == s.aliases && out.1.indexes.Keys == s.indexes.Keys
  {
    var name := Load(s, argv[1], false).value;
    var sp := s.indexes[name];
    var delDoc := DeleteDocumentRequested(argv);
    var key := argv[2];
    var id := GetId(sp.docs, key);
    var geo := PurgeGeo(sp.fields, sp.geo, id, 0);
    var (rc, docs) := DeleteByKey(sp.docs, key);
    if !rc then
      (Integer(0), s.(indexes := s.indexes[name := sp.(geo := geo, docs := docs)]))
    else
      var sp' := sp.(geo := geo, docs := docs,
                     numDocuments := DecrementSize(sp.numDocuments),
                     gcHints := if sp.hasGc then sp.gcHints + 1 else sp.gcHints);
      var hashes := if delDoc && key in s.hashes then s.hashes - {key} else s.hashes;
      (Integer(1), Server(s.indexes[name := sp'], s.aliases, hashes,
                          s.replicated + [DelReplication(name, key, delDoc)]))
  }

  /** The whole command. The reply is 1 when a document was retired and 0 when the key
      was not (or no longer) in the index. */
  function Delete(s: Server, argv: seq<string>): (out: (Reply, Server))
    // arity and index resolution
    ensures |argv| < 3 || |argv| > 4 ==> out == (WrongArity, s)
    ensures 3 <= |argv| <= 4 && Load(s, argv[1], false).None? ==> out == (Error(UNKNOWN_INDEX), s)
    // the rules gate comes before any lookup and changes nothing
    ensures Resolved(s, argv) && Target(s, argv).useRules ==> out == (Error(WITHRULES_ERROR), s)
    // an unknown key is a no-op answered with 0
    ensures (Resolved(s, argv) && !Target(s, argv).useRules && GetId(Target(s, argv).docs, argv[2]) == 0) ==>
              out == (Integer(0), s)
    // a resolved key: purge, then the table decides between 1 and 0
    ensures (Resolved(s, argv) && !Target(s, argv).useRules && GetId(Target(s, argv).docs, argv[2]) != 0) ==>
              && Retired(s, argv, out.0, out.1)
              && (out.0 == Integer(1) <==> Target(s, argv).docs.ids[argv[2]] in Target(s, argv).docs.live)
    // the reply is always one of these
    ensures out.0 in {WrongArity, Error(UNKNOWN_INDEX), Error(WITHRULES_ERROR), Integer(0), Integer(1)}
    // only a successful retirement replicates, and then exactly once
    ensures out.0 == Integer(1) ==> |out.1.replicated| == |s.replicated| + 1
    ensures out.0 != Integer(1) ==> out.1.replicated == s.replicated
    // the alias directory and the set of indexes never change
    ensures out.1.aliases == s.aliases && out.1.indexes.Keys == s.indexes.Keys
  {
    if |argv| < 3 || |argv| > 4 then (WrongArity, s)
    else match Load(s, argv[1], false)
      case None => (Error(UNKNOWN_INDEX), s)
      case Some(name) =>
        var sp := s.indexes[name];
        if sp.useRules then (Error(WITHRULES_ERROR), s)
        else
          if GetId(sp.docs, argv[2]) == 0 then (Integer(0), s)
          else RetireKey(s, argv)
  }

  /** Deleting the same key twice: the second call answers 0 and changes nothing. */
  lemma DeleteTwice(s: Server, argv: seq<string>)
    requires 3 <= |argv| <= 4
    ensures var (reply1, s1) := Delete(s, argv);
            var (reply2, s2) := Delete(s1, argv);
            && s2 == s1
            && reply2 == (if reply1 == Integer(1) then Integer(0) else reply1)
            && reply2 in {WrongArity, Error(UNKNOWN_INDEX), Error(WITHRULES_ERROR), Integer(0)}
  {
    var (reply1, s1) := Delete(s, argv);
    match Load(s, argv[1], false)
    case None =>
    case Some(name) =>
      assert Load(s1, argv[1], false) == Some(name);
      if !s.indexes[name].useRules && GetId(s.indexes[name].docs, argv[2]) != 0 {
        assert GetId(s1.indexes[name].docs, argv[2]) == 0;
      }
  }

  /** Deletion keeps the alias directory's invariant. */
  lemma DeletePreservesValid(s: Server, argv: seq<string>)
    requires Valid(s)
    ensures Valid(Delete(s, argv).1)
  {
  }
}

=== FILE: documents.dfy ===
/** `FT.MGET {index} {key} ...`: fetching documents by key. */
module Documents {
  import opened Base
  import opened State
  import Deletion

  /** The reply for one key: nothing for a key the index does not know, or whose hash
      cannot be loaded from the keyspace; otherwise the hash's fields and values. */
  function DocumentReply(s: Server, sp: Index, key: string): Reply
  {
    if GetId(sp.docs, key) == 0 || key !in s.hashes then Null
    else Array(seq(|s.hashes[key]|, k requires 0 <= k < |s.hashes[key]| => Bulk(s.hashes[key][k])))
  }

  /** One reply per requested key, in request order, even for keys that are missing. */
  function GetDocuments(s: Server, argv: seq<string>): (r: Reply)
    ensures |argv| < 3 ==> r == WrongArity
    ensures |argv| >= 3 && Load(s, argv[1], false).None? ==> r == Error(UNKNOWN_INDEX)
    ensures |argv| >= 3 && Load(s, argv[1], false).Some? ==>
              var sp := s.indexes[Load(s, argv[1], false).value];
              && r.Array? && |r.items| == |argv| - 2
              && forall i :: 0 <= i < |r.items| ==>
                   (r.items[i] == Null <==> GetId(sp.docs, argv[i + 2]) == 0 || argv[i + 2] !in s.hashes)
  {
    if |argv| < 3 then WrongArity
    else match Load(s, argv[1], false)
      case None => Error(UNKNOWN_INDEX)
      case Some(name) =>
        var sp := s.indexes[name];
        Array(seq(|argv| - 2, i requires 0 <= i < |argv| - 2 => DocumentReply(s, sp, argv[i + 2])))
  }

  /** A key that `FT.DEL` has been asked to remove from an index fetches as null from it
      afterwards, whatever the deletion replied. */
  lemma FetchAfterDelete(s: Server, name: string, key: string)
    requires name in s.indexes && !s.indexes[name].useRules
    ensures var s' := Deletion.Delete(s, [Deletion.DEL_CMD, name, key]).1;
            GetDocuments(s', ["FT.MGET", name, key]) == Array([Null])
  {
    var argv := [Deletion.DEL_CMD, name, key];
    var s' := Deletion.Delete(s, argv).1;
    assert Load(s', name, false) == Some(name);
    assert GetId(s'.indexes[name].docs, key) == 0;
  }
}

=== FILE: explain.dfy ===
/** `FT.EXPLAINCLI`: the explanation text split at newlines into one reply element per line. */
module Explain {
  import opened Base

  /** The pieces `strsep(&s, "\n")` yields until it returns NULL: the text between
      newlines, including empty pieces, and always at least one. */
  function SplitLines(s: string): (lines: seq<string>)
    ensures |lines| >= 1
    ensures forall k, i :: 0 <= k < |lines| && 0 <= i < |lines[k]| ==> lines[k][i] != '\n'
    decreases |s|
  {
    if s == [] then [[]]
    else
      var rest := SplitLines(s[1..]);
      if s[0] == '\n' then [[]] + rest else [[s[0]] + rest[0]] + rest[1..]
  }

  function JoinLines(lines: seq<string>): string
    requires |lines| >= 1
  {
    if |lines| == 1 then lines[0] else lines[0] + "\n" + JoinLines(lines[1..])
  }

  function CountNewlines(s: string): nat
  {
    if s == [] then 0 else (if s[0] == '\n' then 1 else 0) + CountNewlines(s[1..])
  }

  lemma JoinLinesCons(line: string, rest: seq<string>)
    requires |rest| >= 1
    ensures JoinLines([line] + rest) == line + "\n" + JoinLines(rest)
  {
    assert ([line] + rest)[1..] == rest;
  }

  /** Putting a character in front of the first line puts it in front of the joined text. */
  lemma PrependToFirstLine(c: char, lines: seq<string>)
    requires |lines| >= 1
    ensures JoinLines([[c] + lines[0]] + lines[1..]) == [c] + JoinLines(lines)
  {
    var head, rest := lines[0], lines[1..];
    if rest != [] {
      var tail := "\n" + JoinLines(rest);
      assert lines == [head] + rest;
      JoinLinesCons(head, rest);
      JoinLinesCons([c] + head, rest);
      ConcatAssociative([c] + head, "\n", JoinLines(rest));
      ConcatAssociative(head, "\n", JoinLines(rest));
      ConcatAssociative([c], head, tail);
    }
  }

  /** Splitting loses nothing: joining the lines with newlines gives the text back. */
  lemma {:induction false} SplitLinesRoundTrip(s: string)
    ensures JoinLines(SplitLines(s)) == s
    decreases |s|
  {
    if s != [] {
      var rest := SplitLines(s[1..]);
      assert JoinLines(rest) == s[1..] by {
        SplitLinesRoundTrip(s[1..]);
      }
      if s[0] == '\n' {
        assert SplitLines(s) == [[]] + rest;
        JoinLinesCons([], rest);
      } else {
        assert SplitLines(s) == [[s[0]] + rest[0]] + rest[1..];
        PrependToFirstLine(s[0], rest);
      }
      assert s == [s[0]] + s[1..];
    }
  }

  /** There is one line more than there are newlines. */
  lemma {:induction false} SplitLinesCount(s: string)
    ensures |SplitLines(s)| == CountNewlines(s) + 1
    decreases |s|
  {
    if s != [] {
      SplitLinesCount(s[1..]);
    }
  }

  /** `queryExplainCommon`: the error reply when no explanation could be produced;
      otherwise one string, or one element per line. */
  function ExplainReply(explanation: Option<string>, errorReply: Reply, newlinesAsElements: bool): (r: Reply)
    ensures explanation.None? ==> r == errorReply
    ensures explanation.Some? && !newlinesAsElements ==> r == Bulk(explanation.value)
    ensures explanation.Some? && newlinesAsElements ==>
              r.Array? && |r.items| == CountNewlines(explanation.value) + 1 &&
              |r.items| == |SplitLines(explanation.value)| &&
              forall k :: 0 <= k < |r.items| ==> r.items[k] == Simple(SplitLines(explanation.value)[k])
  {
    match explanation
    case None => errorReply
    case Some(text) =>
      if !newlinesAsElements then Bulk(text)
      else
        var lines := SplitLines(text);
        SplitLinesCount(text);
        Array(seq(|lines|, k requires 0 <= k < |lines| => Simple(lines[k])))
  }
}

=== FILE: sharding.dfy ===
/** The sharding-event handler: whether searches must check that each document's slot
    still belongs to this shard. */
module Sharding {
  import opened Base

  /** The sub-events of the host's sharding event, and any other code. */
  datatype SubEvent = SlotRangeChanged | TrimmingStarted | TrimmingEnded | OtherSubEvent(code: nat)

  /** One delivered event: `isSharding` says whether the event id is the sharding event. */
  datatype Event = Event(isSharding: bool, sub: SubEvent)

  /** The new value of `verifyDocumentSlotRange` after one event; events of another kind
      and unknown sub-events leave it unchanged. */
  function OnShardingEvent(verify: bool, e: Event): (r: bool)
    ensures e.isSharding && e.sub == SlotRangeChanged ==> r
    ensures e.isSharding && e.sub == TrimmingEnded ==> !r
    ensures !(e.isSharding && (e.sub == SlotRangeChanged || e.sub == TrimmingEnded)) ==> r == verify
  {
    if !e.isSharding then verify
    else match e.sub
      case SlotRangeChanged => true
      case TrimmingStarted => verify
      case TrimmingEnded => false
      case OtherSubEvent(_) => verify
  }

  /** The flag after handling `events` in order, starting from `verify`. */
  function Replay(verify: bool, events: seq<Event>): bool
    decreases |events|
  {
    if events == [] then verify else Replay(OnShardingEvent(verify, events[0]), events[1..])
  }

  /** An event that decides the flag: a sharding slot-range change or trim end. */
  predicate Decisive(e: Event) {
    e.isSharding && (e.sub == SlotRangeChanged || e.sub == TrimmingEnded)
  }

  /** Reference reading, from the most recent event backwards: the value the latest
      decisive event imposes, if any. */
  function LastDecisive(events: seq<Event>): Option<bool>
    decreases |events|
  {
    if events == [] then None
    else
      var last := events[|events| - 1];
      if Decisive(last) then Some(last.sub == SlotRangeChanged) else LastDecisive(events[..|events| - 1])
  }

  lemma {:induction false} ReplaySnoc(verify: bool, events: seq<Event>, e: Event)
    ensures Replay(verify, events + [e]) == OnShardingEvent(Replay(verify, events), e)
    decreases |events|
  {
    if events != [] {
      ReplaySnoc(OnShardingEvent(verify, events[0]), events[1..], e);
      assert (events + [e])[1..] == events[1..] + [e];
    }
  }

  /** Handling events one after another leaves the flag as the latest slot-range change
      or trim end set it, and untouched when there was neither. */
  lemma {:induction false} ReplayFollowsLastDecisiveEvent(verify: bool, events: seq<Event>)
    ensures Replay(verify, events) == match LastDecisive(events) case None => verify case Some(b) => b
    decreases |events|
  {
    if events != [] {
      var prefix := events[..|events| - 1];
      var last := events[|events| - 1];
      assert events == prefix + [last];
      ReplaySnoc(verify, prefix, last);
      ReplayFollowsLastDecisiveEvent(verify, prefix);
    }
  }
}

=== FILE: spellcheck.dfy ===
/** The argument handling of `FT.SPELLCHECK {index} {query} [DISTANCE d]
    [TERMS INCLUDE|EXCLUDE dict]... [FULLSCOREINFO]`, up to the point where the
    suggestions are computed. */
module SpellCheck {
  import opened Base
  import opened Ascii
  import opened Decimal
  import opened Args
  import opened State

  /** The command's keywords, matched in any letter case. */
  const KW_TERMS: string := "TERMS"
  const KW_INCLUDE: string := "INCLUDE"
  const KW_EXCLUDE: string := "EXCLUDE"
  const KW_DISTANCE: string := "DISTANCE"
  const KW_FULLSCOREINFO: string := "FULLSCOREINFO"

  const DEFAULT_LEV_DISTANCE: int := 1
  const MAX_LEV_DISTANCE: int := 100

  const DISTANCE_MISSING: string := "DISTANCE arg is given but no DISTANCE comes after"
  const TERMS_MISSING: string := "TERM arg is given but no TERM params comes after"
  const BAD_TERMS_OPERATION: string := "bad format, exlude/include operation was not given"
  const BAD_DISTANCE_PREFIX: string := "bad distance given, distance must be a natural number between 1 to "

  /** The distance error as the source builds it: `STRINGIFY(MAX_LEV_DISTANCE)` applies `#`
      directly to the macro's name, and `#` does not expand its operand, so the message
      ends with the macro's name instead of its value. */
  function BadDistanceMessageAsWritten(): string {
    BAD_DISTANCE_PREFIX + "MAX_LEV_DISTANCE"
  }

  /** The message ends in something that is not a number at all. */
  lemma AsWrittenMessageOmitsBound()
    ensures ParseLongLong(BadDistanceMessageAsWritten()[|BAD_DISTANCE_PREFIX|..]) == None
  {
    assert BadDistanceMessageAsWritten()[|BAD_DISTANCE_PREFIX|..] == "MAX_LEV_DISTANCE";
  }

  /** The distance error as evidently intended: it ends with the bound that the range test
      enforces, written in decimal. */
  function BadDistanceMessage(): (m: string)
    ensures |m| > |BAD_DISTANCE_PREFIX| && m[..|BAD_DISTANCE_PREFIX|] == BAD_DISTANCE_PREFIX
    ensures ParseLongLong(m[|BAD_DISTANCE_PREFIX|..]) == Some(MAX_LEV_DISTANCE)
  {
    var m := BAD_DISTANCE_PREFIX + FormatInt(MAX_LEV_DISTANCE);
    ParseFormatRoundTrip(MAX_LEV_DISTANCE);
    FormatNatIsCanonical(MAX_LEV_DISTANCE);
    assert m[|BAD_DISTANCE_PREFIX|..] == FormatInt(MAX_LEV_DISTANCE);
    m
  }

  /** What the dictionary clauses yield: the dictionaries to include and to exclude, in
      argument order, or the first error. */
  datatype TermsOutcome = TermsOk(included: seq<string>, excluded: seq<string>) | TermsError(message: string)

  /** The `while (RMUtil_ArgExists("TERMS", ...))` loop, from position `from` on: each
      `TERMS` keyword needs an operation and a dictionary name after it, and the search
      for the next keyword resumes just after the one handled. */
  function CollectTerms(argv: seq<string>, from: nat, included: seq<string>, excluded: seq<string>): TermsOutcome
    requires from >= 1
    decreases |argv| - from
  {
    var pos := ArgExists(KW_TERMS, argv, from);
    if pos == 0 then TermsOk(included, excluded)
    else if pos + 2 >= |argv| then TermsError(TERMS_MISSING)
    else if EqualsIgnoreCase(argv[pos + 1], KW_INCLUDE) then CollectTerms(argv, pos + 1, included + [argv[pos + 2]], excluded)
    else if EqualsIgnoreCase(argv[pos + 1], KW_EXCLUDE) then CollectTerms(argv, pos + 1, included, excluded + [argv[pos + 2]])
    else TermsError(BAD_TERMS_OPERATION)
  }

  /** A `TERMS` keyword at `p` has an operation and a dictionary after it, and the
      operation is INCLUDE or EXCLUDE. */
  predicate ClauseOk(argv: seq<string>, p: nat) {
    p + 2 < |argv| && (EqualsIgnoreCase(argv[p + 1], KW_INCLUDE) || EqualsIgnoreCase(argv[p + 1], KW_EXCLUDE))
  }

  /** Reference reading of the clauses: every `TERMS` keyword at or after `from` starts a
      well-formed clause. */
  predicate TermsWellFormed(argv: seq<string>, from: nat) {
    forall p :: from <= p < |argv| && EqualsIgnoreCase(argv[p], KW_TERMS) ==> ClauseOk(argv, p)
  }

  /** Reference reading of a failure: the first `TERMS` keyword at or after `from`,
      scanning position by position, whose clause is not well formed. */
  function FirstBadClause(argv: seq<string>, from: nat): (p: nat)
    requires !TermsWellFormed(argv, from)
    ensures from <= p < |argv| && EqualsIgnoreCase(argv[p], KW_TERMS) && !ClauseOk(argv, p)
    ensures forall q :: from <= q < p && EqualsIgnoreCase(argv[q], KW_TERMS) ==> ClauseOk(argv, q)
    decreases |argv| - from
  {
    if from < |argv| && EqualsIgnoreCase(argv[from], KW_TERMS) && !ClauseOk(argv, from) then from
    else FirstBadClause(argv, from + 1)
  }

  /** A position with the two properties of `FirstBadClause` is the one it finds. */
  lemma FirstBadClauseIsLeast(argv: seq<string>, from: nat, b: nat)
    requires from <= b < |argv| && EqualsIgnoreCase(argv[b], KW_TERMS) && !ClauseOk(argv, b)
    requires forall q :: from <= q < b && EqualsIgnoreCase(argv[q], KW_TERMS) ==> ClauseOk(argv, q)
    ensures !TermsWellFormed(argv, from) && FirstBadClause(argv, from) == b
  {
  }

  /** The error the loop replies for a clause at `p` that is not well formed. */
  function ClauseError(argv: seq<string>, p: nat): string {
    if p + 2 >= |argv| then TERMS_MISSING else BAD_TERMS_OPERATION
  }

  /** Reference reading: the dictionaries named by `TERMS op dict` clauses at or after
      `from`, scanning position by position. */
  function Dictionaries(argv: seq<string>, op: string, from: nat): seq<string>
    decreases |argv| - from
  {
    if from >= |argv| then []
    else
      (if EqualsIgnoreCase(argv[from], KW_TERMS) && from + 2 < |argv| && EqualsIgnoreCase(argv[from + 1], op)
       then [argv[from + 2]] else [])
      + Dictionaries(argv, op, from + 1)
  }

  lemma {:induction false} DictionariesSkip(argv: seq<string>, op: string, from: nat, upto: nat)
    requires from <= upto <= |argv|
    requires forall q :: from <= q < upto ==> !EqualsIgnoreCase(argv[q], KW_TERMS)
    ensures Dictionaries(argv, op, from) == Dictionaries(argv, op, upto)
    decreases upto - from
  {
    if from < upto {
      DictionariesSkip(argv, op, from + 1, upto);
    }
  }

  lemma IncludeIsNotExclude(a: string)
    ensures !(EqualsIgnoreCase(a, KW_INCLUDE) && EqualsIgnoreCase(a, KW_EXCLUDE))
  {
    assert KW_INCLUDE[0] == 'I' && KW_EXCLUDE[0] == 'E';
  }

  lemma WellFormedFromKeyword(argv: seq<string>, from: nat, pos: nat)
    requires from <= pos < |argv| && EqualsIgnoreCase(argv[pos], KW_TERMS)
    requires forall q :: from <= q < pos ==> !EqualsIgnoreCase(argv[q], KW_TERMS)
    ensures TermsWellFormed(argv, from) <==> ClauseOk(argv, pos) && TermsWellFormed(argv, pos + 1)
  {
  }

  lemma {:induction false} CollectTermsSucceedsIffWellFormed(argv: seq<string>, from: nat, included: seq<string>, excluded: seq<string>)
    requires from >= 1
    ensures CollectTerms(argv, from, included, excluded).TermsOk? <==> TermsWellFormed(argv, from)
    decreases |argv| - from
  {
    var pos := ArgExists(KW_TERMS, argv, from);
    if pos == 0 {
      assert CollectTerms(argv, from, included, excluded).TermsOk?;
      assert TermsWellFormed(argv, from);
    } else {
      assert TermsWellFormed(argv, from) <==> ClauseOk(argv, pos) && TermsWellFormed(argv, pos + 1) by {
        WellFormedFromKeyword(argv, from, pos);
      }
      if !ClauseOk(argv, pos) {
        assert CollectTerms(argv, from, included, excluded).TermsError? by {
          if pos + 2 < |argv| {
            CollectTermsStep(argv, from, included, excluded);
          }
        }
      } else {
        var x := argv[pos + 2];
        var inc := EqualsIgnoreCase(argv[pos + 1], KW_INCLUDE);
        var included', excluded' := if inc then included + [x] else included, if inc then excluded else excluded + [x];
        assert CollectTerms(argv, from, included, excluded) == CollectTerms(argv, pos + 1, included', excluded') by {
          CollectTermsStep(argv, from, included, excluded);
        }
        assert CollectTerms(argv, pos + 1, included', excluded').TermsOk? <==> TermsWellFormed(argv, pos + 1) by {
          CollectTermsSucceedsIffWellFormed(argv, pos + 1, included', excluded');
        }
      }
    }
  }

  /** A failing loop stops at the first ill-formed clause of the reference reading: with
      too few arguments after it the reply is the missing-parameters error, otherwise the
      bad-operation error. */
  lemma {:induction false} CollectTermsFailsAtFirstBadClause(argv: seq<string>, from: nat, included: seq<string>, excluded: seq<string>)
    requires from >= 1 && !TermsWellFormed(argv, from)
    ensures CollectTerms(argv, from, included, excluded) == TermsError(ClauseError(argv, FirstBadClause(argv, from)))
    decreases |argv| - from
  {
    var b := FirstBadClause(argv, from);
    var pos := ArgExists(KW_TERMS, argv, from);
    assert pos != 0 && pos <= b;
    assert TermsWellFormed(argv, from) <==> ClauseOk(argv, pos) && TermsWellFormed(argv, pos + 1) by {
      WellFormedFromKeyword(argv, from, pos);
    }
    if !ClauseOk(argv, pos) {
      assert pos == b;
      if pos + 2 < |argv| {
        CollectTermsStep(argv, from, included, excluded);
      }
    } else {
      var x := argv[pos + 2];
      var inc := EqualsIgnoreCase(argv[pos + 1], KW_INCLUDE);
      var included', excluded' := if inc then included + [x] else included, if inc then excluded else excluded + [x];
      assert CollectTerms(argv, from, included, excluded) == CollectTerms(argv, pos + 1, included', excluded') by {
        CollectTermsStep(argv, from, included, excluded);
      }
      assert FirstBadClause(argv, pos + 1) == b by {
        FirstBadClauseIsLeast(argv, pos + 1, b);
      }
      CollectTermsFailsAtFirstBadClause(argv, pos + 1, included', excluded');
    }
  }

  lemma DictionariesAtKeyword(argv: seq<string>, op: string, pos: nat)
    requires pos + 2 < |argv| && EqualsIgnoreCase(argv[pos], KW_TERMS)
    ensures Dictionaries(argv, op, pos) ==
              (if EqualsIgnoreCase(argv[pos + 1], op) then [argv[pos + 2]] else []) + Dictionaries(argv, op, pos + 1)
  {
  }

  /** One step of the loop, when the keyword found at `pos` is well formed. */
  lemma CollectTermsStep(argv: seq<string>, from: nat, included: seq<string>, excluded: seq<string>)
    requires from >= 1
    requires ArgExists(KW_TERMS, argv, from) != 0 && ArgExists(KW_TERMS, argv, from) + 2 < |argv|
    ensures var pos := ArgExists(KW_TERMS, argv, from);
            var inc := EqualsIgnoreCase(argv[pos + 1], KW_INCLUDE);
            var exc := !inc && EqualsIgnoreCase(argv[pos + 1], KW_EXCLUDE);
            CollectTerms(argv, from, included, excluded) ==
              if inc then CollectTerms(argv, pos + 1, included + [argv[pos + 2]], excluded)
              else if exc then CollectTerms(argv, pos + 1, included, excluded + [argv[pos + 2]])
              else TermsError(BAD_TERMS_OPERATION)
  {
  }

  /** The reference reading, advanced over one well-formed clause at `pos`: only that
      clause's dictionary is added, to the list its operation names. */
  lemma DictionariesStep(argv: seq<string>, from: nat, pos: nat)
    requires from <= pos && ClauseOk(argv, pos) && EqualsIgnoreCase(argv[pos], KW_TERMS)
    requires forall q :: from <= q < pos ==> !EqualsIgnoreCase(argv[q], KW_TERMS)
    ensures var isInc := EqualsIgnoreCase(argv[pos + 1], KW_INCLUDE);
            Dictionaries(argv, KW_INCLUDE, from) ==
              (if isInc then [argv[pos + 2]] else []) + Dictionaries(argv, KW_INCLUDE, pos + 1)
    ensures var isInc := EqualsIgnoreCase(argv[pos + 1], KW_INCLUDE);
            Dictionaries(argv, KW_EXCLUDE, from) ==
              (if isInc then [] else [argv[pos + 2]]) + Dictionaries(argv, KW_EXCLUDE, pos + 1)
  {
    DictionariesSkip(argv, KW_INCLUDE, from, pos);
    DictionariesAtKeyword(argv, KW_INCLUDE, pos);
    DictionariesSkip(argv, KW_EXCLUDE, from, pos);
    DictionariesAtKeyword(argv, KW_EXCLUDE, pos);
    IncludeIsNotExclude(argv[pos + 1]);
  }

  /** One well-formed clause, seen from both readings: the loop and the reference
      reading each add the same dictionary to the same list and continue after `pos`. */
  lemma CollectTermsAdvance(argv: seq<string>, from: nat, included: seq<string>, excluded: seq<string>)
      returns (next: nat, incAdd: seq<string>, excAdd: seq<string>)
    requires from >= 1
    requires ArgExists(KW_TERMS, argv, from) != 0 && ClauseOk(argv, ArgExists(KW_TERMS, argv, from))
    ensures next > from
    ensures CollectTerms(argv, from, included, excluded) == CollectTerms(argv, next, included + incAdd, excluded + excAdd)
    ensures Dictionaries(argv, KW_INCLUDE, from) == incAdd + Dictionaries(argv, KW_INCLUDE, next)
    ensures Dictionaries(argv, KW_EXCLUDE, from) == excAdd + Dictionaries(argv, KW_EXCLUDE, next)
  {
    var pos := ArgExists(KW_TERMS, argv, from);
    var x := argv[pos + 2];
    next := pos + 1;
    if EqualsIgnoreCase(argv[pos + 1], KW_INCLUDE) {
      incAdd, excAdd := [x], [];
      assert excluded + excAdd == excluded;
    } else {
      incAdd, excAdd := [], [x];
      assert included + incAdd == included;
    }
    CollectTermsStep(argv, from, included, excluded);
    DictionariesStep(argv, from, pos);
  }

  lemma {:induction false} CollectTermsCollectsDictionaries(argv: seq<string>, from: nat, included: seq<string>, excluded: seq<string>)
    requires from >= 1
    ensures var r := CollectTerms(argv, from, included, excluded);
            r.TermsOk? ==> r.included == included + Dictionaries(argv, KW_INCLUDE, from)
    ensures var r := CollectTerms(argv, from, included, excluded);
            r.TermsOk? ==> r.excluded == excluded + Dictionaries(argv, KW_EXCLUDE, from)
    decreases |argv| - from
  {
    var pos := ArgExists(KW_TERMS, argv, from);
    if pos == 0 {
      assert CollectTerms(argv, from, included, excluded) == TermsOk(included, excluded);
      if from <= |argv| {
        DictionariesSkip(argv, KW_INCLUDE, from, |argv|);
        DictionariesSkip(argv, KW_EXCLUDE, from, |argv|);
      }
    } else if !ClauseOk(argv, pos) {
      assert CollectTerms(argv, from, included, excluded).TermsError? by {
        if pos + 2 < |argv| {
          CollectTermsStep(argv, from, included, excluded);
        }
      }
    } else {
      var next, incAdd, excAdd := CollectTermsAdvance(argv, from, included, excluded);
      var included', excluded' := included + incAdd, excluded + excAdd;
      var inc, exc := Dictionaries(argv, KW_INCLUDE, next), Dictionaries(argv, KW_EXCLUDE, next);
      var r := CollectTerms(argv, next, included', excluded');
      assert r.TermsOk? ==> r.included == included' + inc && r.excluded == excluded' + exc by {
        CollectTermsCollectsDictionaries(argv, next, included', excluded');
      }
      ConcatAssociative(included, incAdd, inc);
      ConcatAssociative(excluded, excAdd, exc);
    }
  }

  datatype Options = Options(distance: int, included: seq<string>, excluded: seq<string>, fullScoreInfo: bool)

  /** Either the options the suggestions are computed with, or the reply refusing the request. */
  datatype Outcome = Run(options: Options) | Refused(reply: Reply)

  /** The value after DISTANCE: a signed 64-bit integer within [1, 100], or nothing. */
  function DistanceValue(arg: string): (r: Option<int>)
    ensures r.Some? ==> 1 <= r.value <= MAX_LEV_DISTANCE
  {
    var d := ParseLongLong(arg);
    if d.Some? && 1 <= d.value <= MAX_LEV_DISTANCE then d else None
  }

  /** The accepted distances are exactly the canonical decimal spellings of 1 to 100. */
  lemma DistanceValueIsCanonical(arg: string, d: int)
    ensures DistanceValue(arg) == Some(d) <==> 1 <= d <= MAX_LEV_DISTANCE && arg == FormatInt(d)
  {
    if DistanceValue(arg) == Some(d) {
      FormatParseRoundTrip(arg, d);
    }
    if 1 <= d <= MAX_LEV_DISTANCE && arg == FormatInt(d) {
      ParseFormatRoundTrip(d);
    }
  }

  /** The DISTANCE clause: its position is searched from the start of the arguments and
      a value must follow; without the clause the distance is 1. The result is the
      distance or the error reply. */
  function ParseDistance(argv: seq<string>): (r: Outcome)
    ensures ArgExists(KW_DISTANCE, argv, 0) == 0 ==> r == Run(Options(DEFAULT_LEV_DISTANCE, [], [], false))
    ensures ArgExists(KW_DISTANCE, argv, 0) != 0 && ArgExists(KW_DISTANCE, argv, 0) + 1 >= |argv| ==>
              r == Refused(Error(DISTANCE_MISSING))
    ensures (ArgExists(KW_DISTANCE, argv, 0) != 0 && ArgExists(KW_DISTANCE, argv, 0) + 1 < |argv|) ==>
              var d := DistanceValue(argv[ArgExists(KW_DISTANCE, argv, 0) + 1]);
              if d.Some? then r == Run(Options(d.value, [], [], false))
              else r == Refused(Error(BadDistanceMessage()))
    ensures r.Run? ==> 1 <= r.options.distance <= MAX_LEV_DISTANCE
  {
    var distancePos := ArgExists(KW_DISTANCE, argv, 0);
    if distancePos == 0 then Run(Options(DEFAULT_LEV_DISTANCE, [], [], false))
    else if distancePos + 1 >= |argv| then Refused(Error(DISTANCE_MISSING))
    else
      match DistanceValue(argv[distancePos + 1])
      case None => Refused(Error(BadDistanceMessage()))
      case Some(d) => Run(Options(d, [], [], false))
  }

  /** Where the distance argument is refused, the command's reply carries the bound as a
      number; the handler as written sends the same prefix followed by the macro's name. */
  lemma DistanceRefusalNamesTheBound(argv: seq<string>)
    requires ArgExists(KW_DISTANCE, argv, 0) != 0 && ArgExists(KW_DISTANCE, argv, 0) + 1 < |argv|
    requires DistanceValue(argv[ArgExists(KW_DISTANCE, argv, 0) + 1]).None?
    ensures ParseDistance(argv) == Refused(Error(BadDistanceMessage()))
    ensures BadDistanceMessage()[..|BAD_DISTANCE_PREFIX|] == BadDistanceMessageAsWritten()[..|BAD_DISTANCE_PREFIX|]
    ensures BadDistanceMessage() != BadDistanceMessageAsWritten()
  {
    AsWrittenMessageOmitsBound();
  }

  /** The command's checks in order: arity, index, query (whose parse error, if any, is
      `queryError`), distance, dictionary clauses, and the score flag. */
  function SpellCheckArgs(s: Server, argv: seq<string>, queryError: Option<string>): (out: Outcome)
    ensures |argv| < 3 ==> out == Refused(WrongArity)
    ensures |argv| >= 3 && Load(s, argv[1], false).None? ==> out == Refused(Error(UNKNOWN_INDEX))
    ensures |argv| >= 3 && Load(s, argv[1], false).Some? && queryError.Some? ==> out == Refused(Error(queryError.value))
    ensures out.Run? ==> |argv| >= 3 && Load(s, argv[1], false).Some? && queryError.None?
    // the distance clause is checked before the dictionary clauses
    ensures (|argv| >= 3 && Load(s, argv[1], false).Some? && queryError.None? && ParseDistance(argv).Refused?) ==>
              out == ParseDistance(argv)
    ensures out.Run? ==> ParseDistance(argv).Run? && out.options.distance == ParseDistance(argv).options.distance
    // the dictionaries
    ensures out.Run? ==> TermsWellFormed(argv, 1)
    ensures (|argv| >= 3 && Load(s, argv[1], false).Some? && queryError.None? && ParseDistance(argv).Run? &&
             TermsWellFormed(argv, 1)) ==> out.Run?
    ensures (|argv| >= 3 && Load(s, argv[1], false).Some? && queryError.None? && ParseDistance(argv).Run? &&
             !TermsWellFormed(argv, 1)) ==> out == Refused(Error(ClauseError(argv, FirstBadClause(argv, 1))))
    ensures out.Run? ==> (out.options.included == Dictionaries(argv, KW_INCLUDE, 1) &&
                          out.options.excluded == Dictionaries(argv, KW_EXCLUDE, 1))
    ensures out.Run? ==> (out.options.fullScoreInfo <==> ArgExists(KW_FULLSCOREINFO, argv, 0) != 0)
  {
    if |argv| < 3 then Refused(WrongArity)
    else if Load(s, argv[1], false).None? then Refused(Error(UNKNOWN_INDEX))
    else if queryError.Some? then Refused(Error(queryError.value))
    else
      match ParseDistance(argv)
      case Refused(reply) => Refused(reply)
      case Run(distanceOnly) =>
        CollectTermsSucceedsIffWellFormed(argv, 1, [], []);
        CollectTermsCollectsDictionaries(argv, 1, [], []);
        assert !TermsWellFormed(argv, 1) ==>
                 CollectTerms(argv, 1, [], []) == TermsError(ClauseError(argv, FirstBadClause(argv, 1))) by {
          if !TermsWellFormed(argv, 1) {
            CollectTermsFailsAtFirstBadClause(argv, 1, [], []);
          }
        }
        match CollectTerms(argv, 1, [], [])
        case TermsError(message) => Refused(Error(message))
        case TermsOk(included, excluded) =>
          Run(Options(distanceOnly.distance, included, excluded, ArgExists(KW_FULLSCOREINFO, argv, 0) != 0))
  }
}

=== FILE: state.dfy ===
/** The state the commands act on: the registered indexes, the alias directory, the
    hash keys of the keyspace and the replication stream. Each command is one atomic
    step from one `Server` value to the next. */
module State {
  import opened Base
  import Synonyms

  datatype FieldType = FullText | Numeric | Geo | Tag

  /** A schema field; a field may carry several types, and `FIELD_IS` asks for one. */
  datatype Field = Field(name: string, types: set<FieldType>)

  /** Internal document ids; 0 is reserved for "not in the index". */
  type DocId = nat

  /** The document table: the key-to-id map that lookups consult, and the ids that still
      have a metadata record (deleting by key succeeds only for those). */
  datatype DocTable = DocTable(ids: map<string, DocId>, live: set<DocId>)

  /** One registered index. `geo` holds, per position of a GEO field in `fields`, the ids
      that have entries in that field's geo index; `gcHints` counts the deletion events
      handed to the index's garbage collector, which exists when `hasGc` holds. */
  datatype Index = Index(
    useRules: bool,
    fields: seq<Field>,
    docs: DocTable,
    geo: map<nat, set<DocId>>,
    numDocuments: SizeT,
    hasGc: bool,
    gcHints: nat,
    synonyms: Option<Synonyms.SynonymMap>)

  /** `indexes` by name; `aliases` maps an alias to the name of the index it denotes;
      `hashes` are the keyspace's hash keys with their field/value lists. */
  datatype Server = Server(
    indexes: map<string, Index>,
    aliases: map<string, string>,
    hashes: map<string, seq<string>>,
    replicated: seq<Replicated>)

  /** The error most commands give for a name that is neither an index nor an alias. */
  const UNKNOWN_INDEX: string := "Unknown Index name"

  /** The directory's invariant: no name is both an index and an alias, and every alias
      denotes a registered index (so there are no alias chains). */
  predicate Valid(s: Server) {
    && s.indexes.Keys !! s.aliases.Keys
    && forall a :: a in s.aliases ==> s.aliases[a] in s.indexes
  }

  /** `IndexSpec_Load`: an index name is tried first; unless `noAlias` is set, an alias
      name is tried next. The result is the name of the index found. */
  function Load(s: Server, name: string, noAlias: bool): (r: Option<string>)
    ensures r.Some? ==> r.value in s.indexes
    ensures name in s.indexes ==> r == Some(name)
    ensures name !in s.indexes && (noAlias || name !in s.aliases) ==> r == None
    ensures name !in s.indexes && !noAlias && name in s.aliases ==>
              r == (if s.aliases[name] in s.indexes then Some(s.aliases[name]) else None)
  {
    if name in s.indexes then Some(name)
    else if !noAlias && name in s.aliases && s.aliases[name] in s.indexes then Some(s.aliases[name])
    else None
  }

  /** `DocTable_GetIdR`: the id for `key`, or 0 when the key is unknown. */
  function GetId(dt: DocTable, key: string): (id: DocId)
    ensures key !in dt.ids ==> id == 0
    ensures key in dt.ids ==> id == dt.ids[key]
  {
    if key in dt.ids then dt.ids[key] else 0
  }

  /** `DocTable_DeleteR`: drops `key` from the id map and reports whether the id it named
      still had a metadata record, which is retired with it. */
  function DeleteByKey(dt: DocTable, key: string): (r: (bool, DocTable))
    ensures r.1.ids == dt.ids - {key}
    ensures r.0 <==> key in dt.ids && dt.ids[key] in dt.live
    ensures r.1.live == if r.0 then dt.live - {dt.ids[key]} else dt.live
  {
    if key in dt.ids && dt.ids[key] in dt.live then (true, DocTable(dt.ids - {key}, dt.live - {dt.ids[key]}))
    else (false, DocTable(dt.ids - {key}, dt.live))
  }

  /** `RedisModule_ReplicateVerbatim` and `RedisModule_Replicate`: one more command in the
      replication stream. */
  function Replicate(s: Server, cmd: Replicated): (s': Server)
    ensures s'.replicated == s.replicated + [cmd]
    ensures s' == s.(replicated := s'.replicated)
  {
    s.(replicated := s.replicated + [cmd])
  }
}

=== FILE: synonym_commands.dfy ===
/** `FT.SYNADD`, `FT.SYNUPDATE`, `FT.SYNFORCEUPDATE` and `FT.SYNDUMP`. */
module SynonymCommands {
  import opened Base
  import opened Decimal
  import opened State
  import opened Synonyms

  /** The synonym commands spell the unknown-index error with a lower-case "index". */
  const SYN_UNKNOWN_INDEX: string := "Unknown index name"
  const ID_NOT_INTEGER: string := "wrong parameters, id is not an integer"
  const ID_OUT_OF_RANGE: string := "wrong parameters, id out of range"
  const ID_UNKNOWN: string := "given id does not exists"

  /** `IndexSpec_InitializeSynonym`: the map of an index, created empty on first use. */
  function MapOf(sp: Index): (m: SynonymMap)
    ensures sp.synonyms.None? ==> m == EmptyMap
    ensures sp.synonyms.Some? ==> m == sp.synonyms.value
  {
    if sp.synonyms.Some? then sp.synonyms.value else EmptyMap
  }

  function WithMap(s: Server, name: string, m: SynonymMap): (s': Server)
    requires name in s.indexes
    ensures s'.indexes == s.indexes[name := s.indexes[name].(synonyms := Some(m))]
    ensures s'.aliases == s.aliases && s'.hashes == s.hashes && s'.replicated == s.replicated
  {
    s.(indexes := s.indexes[name := s.indexes[name].(synonyms := Some(m))])
  }

  /** `FT.SYNADD {index} {term} ...`: a new group holding the terms; the reply is its id. */
  function SynAdd(s: Server, argv: seq<string>): (out: (Reply, Server))
    ensures |argv| < 3 ==> out == (WrongArity, s)
    ensures |argv| >= 3 && Load(s, argv[1], false).None? ==> out == (Error(SYN_UNKNOWN_INDEX), s)
    ensures |argv| >= 3 && Load(s, argv[1], false).Some? ==>
              var name := Load(s, argv[1], false).value;
              var m := MapOf(s.indexes[name]);
              && out.0 == Integer(m.nextId)
              && out.1.replicated == s.replicated + [argv]
              && out.1.aliases == s.aliases && out.1.hashes == s.hashes
              && out.1.indexes.Keys == s.indexes.Keys
              && out.1.indexes[name].synonyms.Some?
              && out.1.indexes[name].synonyms.value.nextId == m.nextId + 1
              && out.1.indexes[name] == s.indexes[name].(synonyms := out.1.indexes[name].synonyms)
              && (forall other :: other in s.indexes && other != name ==> out.1.indexes[other] == s.indexes[other])
  {
    if |argv| < 3 then (WrongArity, s)
    else match Load(s, argv[1], false)
      case None => (Error(SYN_UNKNOWN_INDEX), s)
      case Some(name) =>
        var s1 := Replicate(s, argv);
        var (id, m) := AddGroup(MapOf(s.indexes[name]), argv[2..]);
        (Integer(id), WithMap(s1, name, m))
  }

  /** `SynUpdateCommandInternal`: in checked mode the id must have been handed out by
      this index's map (which must exist); force mode skips that test. */
  function SynUpdateInternal(s: Server, indexName: string, id: nat, terms: seq<string>, checkIdSanity: bool): (out: (Reply, Server))
    ensures Load(s, indexName, false).None? ==> out == (Error(SYN_UNKNOWN_INDEX), s)
    ensures Load(s, indexName, false).Some? ==>
              var name := Load(s, indexName, false).value;
              var sp := s.indexes[name];
              if checkIdSanity && (sp.synonyms.None? || id >= sp.synonyms.value.nextId) then
                out == (Error(ID_UNKNOWN), s)
              else
                out == (Simple("OK"), WithMap(s, name, Update(MapOf(sp), terms, id)))
  {
    match Load(s, indexName, false)
    case None => (Error(SYN_UNKNOWN_INDEX), s)
    case Some(name) =>
      var sp := s.indexes[name];
      if checkIdSanity && (sp.synonyms.None? || id >= sp.synonyms.value.nextId) then (Error(ID_UNKNOWN), s)
      else (Simple("OK"), WithMap(s, name, Update(MapOf(sp), terms, id)))
  }

  /** The argument checks shared by `FT.SYNUPDATE` and `FT.SYNFORCEUPDATE`; the command is
      replicated as soon as the id is valid, before the index is even loaded. */
  function SynUpdateCommon(s: Server, argv: seq<string>, checkIdSanity: bool): (out: (Reply, Server))
    ensures |argv| < 4 ==> out == (WrongArity, s)
    ensures |argv| >= 4 && ParseLongLong(argv[2]).None? ==> out == (Error(ID_NOT_INTEGER), s)
    ensures (|argv| >= 4 && ParseLongLong(argv[2]).Some? && !(0 <= ParseLongLong(argv[2]).value <= UINT32_MAX)) ==>
              out == (Error(ID_OUT_OF_RANGE), s)
    ensures out.0 == Simple("OK") ==> 0 <= ParseLongLong(argv[2]).value <= UINT32_MAX
    ensures |argv| >= 4 && ParseLongLong(argv[2]).Some? && 0 <= ParseLongLong(argv[2]).value <= UINT32_MAX ==>
              out == SynUpdateInternal(Replicate(s, argv), argv[1], ParseLongLong(argv[2]).value, argv[3..], checkIdSanity)
  {
    if |argv| < 4 then (WrongArity, s)
    else match ParseLongLong(argv[2])
      case None => (Error(ID_NOT_INTEGER), s)
      case Some(id) =>
        if id < 0 || id > UINT32_MAX then (Error(ID_OUT_OF_RANGE), s)
        else SynUpdateInternal(Replicate(s, argv), argv[1], id, argv[3..], checkIdSanity)
  }

  /** `FT.SYNUPDATE {index} {id} {term} ...` */
  function SynUpdate(s: Server, argv: seq<string>): (Reply, Server)
  {
    SynUpdateCommon(s, argv, true)
  }

  /** `FT.SYNFORCEUPDATE {index} {id} {term} ...` */
  function SynForceUpdate(s: Server, argv: seq<string>): (Reply, Server)
  {
    SynUpdateCommon(s, argv, false)
  }

  /** A new group: the reply is the id handed out, every given term now lists it, and
      no term gains any other group. */
  lemma SynAddOutcome(s: Server, argv: seq<string>, u: string, j: nat)
    requires |argv| >= 3 && Load(s, argv[1], false).Some?
    ensures var name := Load(s, argv[1], false).value;
            var m := MapOf(s.indexes[name]);
            var (reply, s') := SynAdd(s, argv);
            && reply == Integer(m.nextId)
            && (j in IdsOf(s'.indexes[name].synonyms.value.entries, u) <==>
                  j in IdsOf(m.entries, u) || (j == m.nextId && u in argv[2..]))
  {
    var m := MapOf(s.indexes[Load(s, argv[1], false).value]);
    AddGroupAllocatesNextId(m, argv[2..], u, j);
  }

  /** A checked update succeeds exactly for an in-range id below the counter of an
      existing map; the group then gains the new terms, the counter stays, and the
      command is replicated whatever the outcome once the id passed the range check.
      Nothing but the index's synonym map and the replication stream ever changes. */
  lemma CheckedUpdateOutcome(s: Server, argv: seq<string>, u: string, j: nat)
    requires |argv| >= 4 && ParseLongLong(argv[2]).Some?
    requires Load(s, argv[1], false).Some?
    ensures var id := ParseLongLong(argv[2]).value;
            var sp := s.indexes[Load(s, argv[1], false).value];
            var (reply, s') := SynUpdate(s, argv);
            && (reply == Simple("OK") <==>
                  0 <= id <= UINT32_MAX && sp.synonyms.Some? && id < sp.synonyms.value.nextId)
            && (reply != Simple("OK") ==> s'.indexes == s.indexes)
            && (s'.replicated == if 0 <= id <= UINT32_MAX then s.replicated + [argv] else s.replicated)
            && s'.aliases == s.aliases && s'.hashes == s.hashes && s'.indexes.Keys == s.indexes.Keys
            && (forall other :: other in s.indexes && other != Load(s, argv[1], false).value ==>
                  s'.indexes[other] == s.indexes[other])
            && s'.indexes[Load(s, argv[1], false).value] ==
                 sp.(synonyms := s'.indexes[Load(s, argv[1], false).value].synonyms)
            && (reply == Simple("OK") ==>
                  var m' := s'.indexes[Load(s, argv[1], false).value].synonyms.value;
                  && m'.nextId == sp.synonyms.value.nextId
                  && (j in IdsOf(m'.entries, u) <==>
                        j in IdsOf(sp.synonyms.value.entries, u) || (j == id && u in argv[3..])))
  {
    var id := ParseLongLong(argv[2]).value;
    var name := Load(s, argv[1], false).value;
    var sp := s.indexes[name];
    if 0 <= id <= UINT32_MAX {
      var s1 := Replicate(s, argv);
      assert Load(s1, argv[1], false) == Some(name) && s1.indexes == s.indexes;
      assert SynUpdate(s, argv) == SynUpdateInternal(s1, argv[1], id, argv[3..], true);
      if sp.synonyms.Some? && id < sp.synonyms.value.nextId {
        AddTermsIds(sp.synonyms.value.entries, argv[3..], id, u);
      }
    }
  }

  /** A forced update succeeds for every in-range id of an existing index, creating the
      map if the index had none and leaving its counter alone; it is replicated once, and
      nothing but the index's synonym map changes. */
  lemma ForcedUpdateOutcome(s: Server, argv: seq<string>, u: string, j: nat)
    requires |argv| >= 4 && ParseLongLong(argv[2]).Some?
    requires 0 <= ParseLongLong(argv[2]).value <= UINT32_MAX
    requires Load(s, argv[1], false).Some?
    ensures var id := ParseLongLong(argv[2]).value;
            var sp := s.indexes[Load(s, argv[1], false).value];
            var (reply, s') := SynForceUpdate(s, argv);
            var m' := s'.indexes[Load(s, argv[1], false).value].synonyms;
            && reply == Simple("OK")
            && s'.replicated == s.replicated + [argv]
            && s'.aliases == s.aliases && s'.hashes == s.hashes && s'.indexes.Keys == s.indexes.Keys
            && (forall other :: other in s.indexes && other != Load(s, argv[1], false).value ==>
                  s'.indexes[other] == s.indexes[other])
            && s'.indexes[Load(s, argv[1], false).value] == sp.(synonyms := m')
            && m'.Some? && m'.value.nextId == MapOf(sp).nextId
            && (j in IdsOf(m'.value.entries, u) <==> j in IdsOf(MapOf(sp).entries, u) || (j == id && u in argv[3..]))
  {
    AddTermsIds(MapOf(s.indexes[Load(s, argv[1], false).value]).entries, argv[3..], ParseLongLong(argv[2]).value, u);
  }

  /** The replies for a list of group ids, in order. */
  function IdReplies(ids: seq<nat>): (r: seq<Reply>)
    ensures |r| == |ids| && forall k :: 0 <= k < |ids| ==> r[k] == Integer(ids[k])
  {
    seq(|ids|, k requires 0 <= k < |ids| => Integer(ids[k]))
  }

  /** The body of a dump: for every term, in the map's order, the term followed by the
      list of its group ids. */
  function DumpItems(entries: seq<TermIds>): (items: seq<Reply>)
    ensures |items| == 2 * |entries|
    ensures forall i :: 0 <= i < |entries| ==>
              items[2 * i] == Bulk(entries[i].term) && items[2 * i + 1] == Array(IdReplies(entries[i].ids))
  {
    if entries == [] then []
    else
      var rest := DumpItems(entries[1..]);
      var items := [Bulk(entries[0].term), Array(IdReplies(entries[0].ids))] + rest;
      forall i | 1 <= i < |entries|
        ensures items[2 * i] == Bulk(entries[i].term) && items[2 * i + 1] == Array(IdReplies(entries[i].ids))
      {
        var k := i - 1;
        assert entries[1..][k] == entries[i];
        assert items[2 * i] == rest[2 * k] && items[2 * i + 1] == rest[2 * k + 1];
      }
      items
  }

  /** `FT.SYNDUMP {index}`: an empty array when the index never had a synonym command,
      otherwise the term/ids pairs; nothing changes. */
  function SynDump(s: Server, argv: seq<string>): (r: Reply)
    ensures |argv| < 2 ==> r == WrongArity
    ensures |argv| >= 2 && Load(s, argv[1], false).None? ==> r == Error(SYN_UNKNOWN_INDEX)
    ensures |argv| >= 2 && Load(s, argv[1], false).Some? ==>
              var sp := s.indexes[Load(s, argv[1], false).value];
              r.Array? && (sp.synonyms.None? ==> r.items == []) &&
              (sp.synonyms.Some? ==> |r.items| == 2 * |sp.synonyms.value.entries|)
  {
    if |argv| < 2 then WrongArity
    else match Load(s, argv[1], false)
      case None => Error(SYN_UNKNOWN_INDEX)
      case Some(name) =>
        var sp := s.indexes[name];
        if sp.synonyms.None? then Array([]) else Array(DumpItems(sp.synonyms.value.entries))
  }

  /** A worked example of building groups: two groups get ids 0 and 1, a checked
      update extends group 0, and the map then lists every term with its groups, in the
      order this model keeps them. */
  lemma SynonymScenario()
    ensures var (id0, m0) := AddGroup(EmptyMap, ["hi", "hello"]);
            var (id1, m1) := AddGroup(m0, ["bye"]);
            var m2 := Update(m1, ["yo"], 0);
            && id0 == 0 && id1 == 1 && 0 < m1.nextId
            && m2.entries == [TermIds("hi", [0]), TermIds("hello", [0]), TermIds("bye", [1]), TermIds("yo", [0])]
  {
    var hi, hello, bye, yo := TermIds("hi", [0]), TermIds("hello", [0]), TermIds("bye", [1]), TermIds("yo", [0]);
    assert AddId([], "hi", 0) == [hi];
    assert AddId([hi], "hello", 0) == [hi] + AddId([], "hello", 0) == [hi, hello];
    assert AddTerms([], ["hi", "hello"], 0) == AddTerms([hi], ["hello"], 0) == AddTerms([hi, hello], [], 0);
    assert AddId([hi, hello], "bye", 1) == [hi] + AddId([hello], "bye", 1);
    assert AddId([hello], "bye", 1) == [hello] + AddId([], "bye", 1) == [hello, bye];
    assert AddTerms([hi, hello], ["bye"], 1) == [hi, hello, bye];
    assert AddId([hi, hello, bye], "yo", 0) == [hi] + AddId([hello, bye], "yo", 0);
    assert AddId([hello, bye], "yo", 0) == [hello] + AddId([bye], "yo", 0);
    assert AddId([bye], "yo", 0) == [bye] + AddId([], "yo", 0) == [bye, yo];
    assert AddTerms([hi, hello, bye], ["yo"], 0) == [hi, hello, bye, yo];
  }
}

=== FILE: synonyms.dfy ===
/** The per-index synonym map: a counter for the next group id and, for every term,
    the ids of the groups it belongs to. A dump reports this inverse index; keeping the
    terms in the order they were first added is this model's choice, since the order
    of the map's own term listing is not part of this model. */
module Synonyms {

  datatype TermIds = TermIds(term: string, ids: seq<nat>)

  datatype SynonymMap = SynonymMap(nextId: nat, entries: seq<TermIds>)

  /** The map an index gets the first time a synonym command touches it. */
  const EmptyMap: SynonymMap := SynonymMap(0, [])

  predicate DistinctTerms(entries: seq<TermIds>) {
    forall i, j :: 0 <= i < j < |entries| ==> entries[i].term != entries[j].term
  }

  function Terms(entries: seq<TermIds>): set<string> {
    set e | e in entries :: e.term
  }

  /** The group ids recorded for `t`, oldest first; empty for an unknown term. */
  function IdsOf(entries: seq<TermIds>, t: string): seq<nat> {
    if entries == [] then []
    else if entries[0].term == t then entries[0].ids
    else IdsOf(entries[1..], t)
  }

  lemma IdsOfCons(e: TermIds, rest: seq<TermIds>, u: string)
    ensures IdsOf([e] + rest, u) == if e.term == u then e.ids else IdsOf(rest, u)
  {
    assert ([e] + rest)[1..] == rest;
  }

  lemma TermsCons(e: TermIds, rest: seq<TermIds>)
    ensures Terms([e] + rest) == {e.term} + Terms(rest)
  {
  }

  /** Records that `t` belongs to group `id`: an existing term gains `id` at the end of
      its list (once), a new term is appended with just `id`. */
  function AddId(entries: seq<TermIds>, t: string, id: nat): (r: seq<TermIds>)
    ensures |entries| <= |r| <= |entries| + 1
    ensures forall i :: 0 <= i < |entries| ==> r[i].term == entries[i].term
  {
    if entries == [] then [TermIds(t, [id])]
    else if entries[0].term == t then
      var ids := entries[0].ids;
      [TermIds(t, if id in ids then ids else ids + [id])] + entries[1..]
    else
      [entries[0]] + AddId(entries[1..], t, id)
  }

  lemma {:induction false} AddIdTerms(entries: seq<TermIds>, t: string, id: nat)
    ensures Terms(AddId(entries, t, id)) == Terms(entries) + {t}
    decreases |entries|
  {
    if entries != [] {
      var e := entries[0];
      var rest := entries[1..];
      assert entries == [e] + rest;
      TermsCons(e, rest);
      if e.term == t {
        TermsCons(TermIds(t, if id in e.ids then e.ids else e.ids + [id]), rest);
      } else {
        AddIdTerms(rest, t, id);
        TermsCons(e, AddId(rest, t, id));
      }
    }
  }

  /** Adding `t` to group `id` changes the id list of `t` only, appending `id` unless
      it is already there. */
  lemma {:induction false} AddIdIds(entries: seq<TermIds>, t: string, id: nat, u: string)
    ensures IdsOf(AddId(entries, t, id), u) ==
              if u != t then IdsOf(entries, u)
              else if id in IdsOf(entries, t) then IdsOf(entries, t)
              else IdsOf(entries, t) + [id]
    decreases |entries|
  {
    if entries != [] {
      var e := entries[0];
      var rest := entries[1..];
      assert entries == [e] + rest;
      IdsOfCons(e, rest, u);
      IdsOfCons(e, rest, t);
      if e.term == t {
        IdsOfCons(TermIds(t, if id in e.ids then e.ids else e.ids + [id]), rest, u);
      } else {
        AddIdIds(rest, t, id, u);
        IdsOfCons(e, AddId(rest, t, id), u);
      }
    }
  }

  lemma DistinctCons(e: TermIds, rest: seq<TermIds>)
    ensures DistinctTerms([e] + rest) <==> e.term !in Terms(rest) && DistinctTerms(rest)
  {
    var s := [e] + rest;
    if e.term !in Terms(rest) && DistinctTerms(rest) {
      forall i, j | 0 <= i < j < |s| ensures s[i].term != s[j].term {
        assert s[j] == rest[j - 1] && rest[j - 1] in rest;
        if i > 0 {
          assert s[i] == rest[i - 1];
        }
      }
    }
    if DistinctTerms(s) {
      forall i, j | 0 <= i < j < |rest| ensures rest[i].term != rest[j].term {
        assert rest[i] == s[i + 1] && rest[j] == s[j + 1];
      }
      forall x | x in rest ensures x.term != e.term {
        var k :| 0 <= k < |rest| && rest[k] == x;
        assert s[k + 1] == x && s[0] == e;
        assert s[0].term != s[k + 1].term;
      }
    }
  }

  /** Adding a term never lists a term twice. */
  lemma {:induction false} AddIdDistinct(entries: seq<TermIds>, t: string, id: nat)
    requires DistinctTerms(entries)
    ensures DistinctTerms(AddId(entries, t, id))
    decreases |entries|
  {
    if entries != [] {
      var e := entries[0];
      var rest := entries[1..];
      assert entries == [e] + rest;
      DistinctCons(e, rest);
      if e.term == t {
        DistinctCons(TermIds(t, if id in e.ids then e.ids else e.ids + [id]), rest);
      } else {
        AddIdDistinct(rest, t, id);
        AddIdTerms(rest, t, id);
        DistinctCons(e, AddId(rest, t, id));
      }
    }
  }

  /** Adds every one of `terms` to group `id`, left to right. */
  function AddTerms(entries: seq<TermIds>, terms: seq<string>, id: nat): (r: seq<TermIds>)
    ensures |entries| <= |r| && forall i :: 0 <= i < |entries| ==> r[i].term == entries[i].term
    decreases |terms|
  {
    if terms == [] then entries
    else AddTerms(AddId(entries, terms[0], id), terms[1..], id)
  }

  /** Extending a group with several terms grows the term set by exactly those terms. */
  lemma {:induction false} AddTermsTerms(entries: seq<TermIds>, terms: seq<string>, id: nat)
    ensures Terms(AddTerms(entries, terms, id)) == Terms(entries) + set t | t in terms
    decreases |terms|
  {
    if terms != [] {
      AddIdTerms(entries, terms[0], id);
      AddTermsTerms(AddId(entries, terms[0], id), terms[1..], id);
      assert (set t | t in terms) == {terms[0]} + set t | t in terms[1..];
    }
  }

  /** After extending group `id` with `terms`, a term lists a group exactly when it did
      before or it is one of `terms` and the group is `id`; earlier ids keep their order. */
  lemma {:induction false} AddTermsIds(entries: seq<TermIds>, terms: seq<string>, id: nat, u: string)
    ensures forall j :: j in IdsOf(AddTerms(entries, terms, id), u) <==>
                        j in IdsOf(entries, u) || (j == id && u in terms)
    ensures IdsOf(entries, u) <= IdsOf(AddTerms(entries, terms, id), u)
    decreases |terms|
  {
    if terms != [] {
      AddIdIds(entries, terms[0], id, u);
      AddTermsIds(AddId(entries, terms[0], id), terms[1..], id, u);
      assert u in terms <==> u == terms[0] || u in terms[1..];
    }
  }

  /** Extending a group never lists a term twice. */
  lemma {:induction false} AddTermsDistinct(entries: seq<TermIds>, terms: seq<string>, id: nat)
    requires DistinctTerms(entries)
    ensures DistinctTerms(AddTerms(entries, terms, id))
    decreases |terms|
  {
    if terms != [] {
      AddIdDistinct(entries, terms[0], id);
      AddTermsDistinct(AddId(entries, terms[0], id), terms[1..], id);
    }
  }

  /** `SynonymMap_UpdateRedisStr`: extends group `id` with `terms`; the counter is untouched. */
  function Update(m: SynonymMap, terms: seq<string>, id: nat): SynonymMap {
    SynonymMap(m.nextId, AddTerms(m.entries, terms, id))
  }

  /** `SynonymMap_AddRedisStr`: a new group receives the next id and holds `terms`. */
  function AddGroup(m: SynonymMap, terms: seq<string>): (nat, SynonymMap) {
    (m.nextId, SynonymMap(m.nextId + 1, AddTerms(m.entries, terms, m.nextId)))
  }

  /** Updating a group unions the terms in: a term lists a group afterwards exactly when
      it did before or it is one of the new terms of that group. */
  lemma UpdateUnionsTerms(m: SynonymMap, terms: seq<string>, id: nat, u: string, j: nat)
    ensures j in IdsOf(Update(m, terms, id).entries, u) <==>
            j in IdsOf(m.entries, u) || (j == id && u in terms)
    ensures Update(m, terms, id).nextId == m.nextId
  {
    AddTermsIds(m.entries, terms, id, u);
  }

  /** A new group takes the current counter value as its id and bumps the counter, and
      its terms list that id and no earlier term gains any other id. */
  lemma AddGroupAllocatesNextId(m: SynonymMap, terms: seq<string>, u: string, j: nat)
    ensures AddGroup(m, terms).0 == m.nextId
    ensures AddGroup(m, terms).1.nextId == m.nextId + 1
    ensures j in IdsOf(AddGroup(m, terms).1.entries, u) <==>
            j in IdsOf(m.entries, u) || (j == m.nextId && u in terms)
  {
    AddTermsIds(m.entries, terms, m.nextId, u);
  }
}
